=== FILE: README.md ===
# restaurant-api: a Dafny model of the controllers and schemas

This project models the domain rules of the restaurant back end: its Express
controllers for orders, categories, reservations, contact messages and menu
items, the Mongoose schemas those controllers write through, and the
express-validator chains in front of menu and order requests.

Each MongoDB collection is a `Store.Collection`. It holds a finite map from id
to an immutable record, the creation-order sequence of ids, and the next free
id. Ids increase with creation, so "sorted by `createdAt`, newest first" is
the id sequence reversed. Every controller is a pure function from the
database and the request to a `Reply`: an outcome plus the database after the
call. The outcome is either a value or one of four error kinds:

- `Validation` is a 400 raised by a controller check or a validator chain;
- `NotFound` is the not-found branch;
- `Conflict` is a 409 for a duplicate category name;
- `SchemaReject` is a Mongoose validation or cast error, which the
  controllers answer with 400 or 500.

Files, following the repository's layout:

- `common.dfy`: options, outcomes, error kinds and a small JSON value type.
- `text.dfy`: ECMAScript `String.prototype.trim`, JavaScript truthiness
  (`!s`, `!s?.trim()`), and the decimal text an id is compared with.
- `store.dfy`: collections, insert/replace/delete, the two listing orders and
  the `find` filter.
- `pagination.dfy`: the `page`/`limit` coercion and slice arithmetic that
  `getAllCate` and `getReservations` share.
- `*_model.dfy`: the five schemas, with their casts, defaults, `required`,
  `min`, `enum` and `trim`.
- `menu_validator.dfy`, `order_validator.dfy`: the validator chains, as
  predicates on request bodies.
- `*_controller.dfy`: the five controllers.

## Model

| member | source | states |
|---|---|---|
| Text.Trim | models/Category.mjs:8 | the result is trimmed, and it is the slice of the input between a leading and a trailing run of white space |
| Text.TrimIdempotent | models/Category.mjs:8 | trimming a trimmed name changes nothing |
| Text.TrimEmptyIffAllSpace | controllers/categoryController.mjs:12 | `name.trim()` is empty exactly when the name is all white space |
| Text.DecimalText | controllers/categoryController.mjs:182-183 | an id's text is a non-empty string of digits whose first digit is '0' only for the id zero; it is one digit exactly for ids below ten |
| Text.NumberText | models/Menu.mjs:24-28 | a number's text starts with a minus sign exactly when the number is negative, and the rest is its decimal text, which is `String(n)` for integers below 10^21 in magnitude |
| Text.Blank | controllers/categoryController.mjs:12 | `!name?.trim()`: the name is absent or trims to the empty string |
| Text.Falsy | controllers/MessageController.mjs:11 | `!email`: the value is absent or the empty string |
| Text.DecimalTextInjective | controllers/categoryController.mjs:182-183 | two ids with the same text are the same id, so a `category` string names at most one category |
| Text.DecimalTextDistinct | controllers/categoryController.mjs:182-183 | distinct ids have distinct texts |
| Store.Insert | controllers/categoryController.mjs:28-32 | `create` stores the document under a fresh id, greater than every id already stored, and appends it to the creation order |
| Store.Replace | controllers/categoryController.mjs:137 | `save()` of a found document puts the new document under its id and keeps the creation order |
| Store.Delete | controllers/categoryController.mjs:165 | `findByIdAndDelete` removes exactly that id, from the map and from the creation order |
| Store.Count | controllers/categoryController.mjs:55 | `countDocuments` equals the number of ids in the creation order |
| Store.IncreasingCardinality | controllers/categoryController.mjs:55 | a strictly increasing id sequence has as many distinct ids as it has entries |
| Store.NewestFirst | controllers/MessageController.mjs:41 | `find().sort({createdAt: -1})` lists every stored document with its id, ids strictly falling |
| Store.OldestFirst | controllers/MenueController.mjs:6 | `find()` lists every stored document with its id, in creation order |
| Store.ListingsAreExact | controllers/MessageController.mjs:41 | an entry is in either listing exactly when it is a stored id with its stored document |
| Store.Where | controllers/MenueController.mjs:6 | a filtered listing holds only entries of the listing that pass the filter, and every such entry |
| Store.WhereConcat | controllers/MenueController.mjs:6 | filtering distributes over concatenation |
| Store.WhereAscending | controllers/MenueController.mjs:6 | filtering a creation-order listing keeps the creation order |
| Store.WhereDescending | controllers/categoryController.mjs:182-185 | filtering a newest-first listing keeps it newest first |
| Pagination.Coerce | controllers/categoryController.mjs:50-51 | `Math.max(parseInt(q) \|\| d, 1)`: a positive query is kept, a negative one gives 1, an absent or zero one gives the default, and the result is at least 1 |
| Pagination.CeilDiv | controllers/categoryController.mjs:70 | `Math.ceil(total / limit)`: the least page count whose pages hold `total` entries |
| Pagination.Skip | controllers/categoryController.mjs:52 | the offset is a whole number of pages: a multiple of the limit whose quotient is `page - 1`, and zero exactly on the first page |
| Pagination.Slice | controllers/categoryController.mjs:58-61 | `.skip(s).limit(l)` keeps at most `l` entries, exactly the ones from position `s` on, and none when `s` is past the end |
| Pagination.List | controllers/categoryController.mjs:50-72 | the page answer: coerced page and limit, `total` the document count, `count` the page length and at most the limit, `totalPages` the ceiling, and the data the newest-first slice |
| Pagination.PageArithmetic | controllers/categoryController.mjs:52-70 | pages before the last end before `total`; the last page starts before `total` and reaches it; later pages start at or after it |
| Pagination.PageSizes | controllers/categoryController.mjs:55-70 | every page before the last is full, the last holds the remainder, and a page past the last is empty |
| Pagination.EntryPage | controllers/categoryController.mjs:52-61 | the entry at position `q * limit + r` is on page `q + 1` at offset `r`, and that page is not past the last |
| Pagination.TwelveByFive | controllers/categoryController.mjs:50-70 | twelve categories at page 2 and limit 5 give five entries and three pages |
| CategoryModel.Create | models/Category.mjs:5-9 | the trim setter runs before `required`, so creation succeeds exactly when the name is not all white space, and stores it trimmed |
| CategoryController.CreateCat | controllers/categoryController.mjs:8-42 | a blank name gives Validation; a trimmed name already in use gives Conflict; otherwise one category is stored under the trimmed name; a failure changes nothing; unique, valid names stay unique and valid |
| CategoryController.GetAllCategories | controllers/categoryController.mjs:48-76 | the page answer over the categories, newest first |
| CategoryController.GetById | controllers/categoryController.mjs:83-103 | an absent id gives NotFound; otherwise the stored category |
| CategoryController.GetByIdAfterCreate | controllers/categoryController.mjs:8-103 | after a successful create, `getById` finds the created category, and every other id reads as before |
| CategoryController.UpdateCat | controllers/categoryController.mjs:109-147 | an absent id gives NotFound; a rename to a name in use gives Conflict and changes nothing; only a non-blank, different trimmed name renames; absent description and icon keep their values; unique, valid names stay so |
| CategoryController.Updated | controllers/categoryController.mjs:122-135 | the saved document takes the trimmed new name only on a rename and the description and icon only when given, and a valid category stays valid |
| CategoryController.UpdateKeepsWellFormed | controllers/categoryController.mjs:123-131 | an update that does not collide keeps category names pairwise distinct |
| CategoryController.GetByIdAfterUpdate | controllers/categoryController.mjs:83-147 | after a successful update, `getById` finds the saved document, and every other id reads as before |
| CategoryController.DeleteCat | controllers/categoryController.mjs:153-174 | an absent id gives NotFound; otherwise exactly that category goes and no other collection changes |
| CategoryController.GetByIdAfterDelete | controllers/categoryController.mjs:83-174 | after a delete, `getById` answers NotFound for that id, and every other id reads as before |
| CategoryController.GetCategoriesWithProducts | controllers/categoryController.mjs:176-202 | every category, newest first, with exactly the stored available items whose `category` is its id, newest first |
| CategoryController.ProductsDisjoint | controllers/categoryController.mjs:182-185 | no item is listed under two categories |
| CategoryController.DeleteLeavesDanglingItems | controllers/categoryController.mjs:157-165 | after a delete, the items naming the category are still stored, and are listed under no category |
| MenuModel.CastString | models/Menu.mjs:24-28 | the String cast of one tag keeps a string, turns a number or a boolean into its text, and refuses anything else |
| MenuModel.Strings | models/Menu.mjs:24-28 | a JSON array casts exactly when every element casts, to the list of the elements' casts in order |
| MenuModel.CastTags | models/Menu.mjs:24-28 | an array casts element by element, and any other value casts as the one-element array holding it |
| MenuModel.StringTagsKept | models/Menu.mjs:24-28 | an array of strings casts to exactly those strings |
| MenuModel.TagCastExamples | models/Menu.mjs:24-28 | `"spicy"` is stored as `["spicy"]`, `[1, true, "vegan"]` as `["1", "true", "vegan"]`, and a nested array or `null` is refused |
| MenuModel.CastBool | models/Menu.mjs:29-32 | the Boolean cast accepts exactly true, "true", 1, "1", "yes" as true and false, "false", 0, "0", "no" as false |
| MenuModel.Create | models/Menu.mjs:3-35 | creation succeeds exactly when the name is present and not all white space, the price is present, the category is non-empty, and the `tags` and `isAvailable` casts succeed; the name is stored trimmed, tags default to none and availability to true |
| MenuModel.Patch | controllers/MenueController.mjs:45-47 | an update sets exactly the present fields, trimming the name; the rest keep their values |
| MenuModel.PatchIdempotent | controllers/MenueController.mjs:45-47 | applying the same update twice stores what applying it once does |
| MenuValidator.AddValid | validators/menueValidator.mjs:3-29 | the add chain: name of at least two characters, positive price and non-empty category required; any `tags` an array of strings |
| MenuValidator.UpdateValid | validators/menueValidator.mjs:31-61 | the update chain: each present field meets the add chain's rule, and a present `isAvailable` is one of true, false, 1, 0 or their texts, or an array whose every element is, where an element that is itself an array passes when it holds exactly one element that passes |
| MenuValidator.AddIsUpdateWithRequiredFields | validators/menueValidator.mjs:3-61 | the add chain is the update chain with name, price and category required and `isAvailable` unchecked |
| MenuValidator.UpdateValidCasts | validators/menueValidator.mjs:46-51 | a body that passes the update chain casts exactly when its `isAvailable` is not an array |
| MenuController.GetMenu | controllers/MenueController.mjs:4-11 | exactly the stored items whose `isAvailable` is true, in creation order |
| MenuController.GetMenuItem | controllers/MenueController.mjs:14-24 | an absent id gives NotFound; otherwise the stored item unchanged |
| MenuController.AddMenuItem | controllers/MenueController.mjs:28-37 | the item is stored exactly when `MenuItem.create` accepts the body, with its casts; a rejection stores nothing |
| MenuController.GetMenuItemAfterAdd | controllers/MenueController.mjs:14-37 | after a successful add, `getMenuItem` finds the stored item, and every other id reads as before |
| MenuController.AddRoute | routes/menueRoutes.mjs:99-107 | the add chain runs first; a body it refuses gives Validation and changes nothing |
| MenuController.AddRouteStores | validators/menueValidator.mjs:4-8 | past the add chain, the item is stored exactly when its name is not all white space and its casts succeed |
| MenuController.BlankNamePassesValidator | validators/menueValidator.mjs:4-8 | a two-space name passes the add chain and is then refused by the schema |
| MenuController.UpdateMenuItem | controllers/MenueController.mjs:41-52 | a body whose `tags` or `isAvailable` cast fails is refused; an absent id answers success with no item and writes nothing; otherwise the patched item is stored and returned |
| MenuController.GetMenuItemAfterUpdate | controllers/MenueController.mjs:14-52 | after an update that finds its item, `getMenuItem` returns the item the update returned |
| MenuController.UpdateRoute | routes/menueRoutes.mjs:152-158 | the update chain runs first; a body it refuses gives Validation and changes nothing |
| MenuController.ValidatedUpdateSucceeds | validators/menueValidator.mjs:32-61 | past the update chain, an update succeeds exactly when `isAvailable` is not an array, and otherwise fails with SchemaReject and changes nothing |
| MenuController.ArrayAvailablePassesValidator | validators/menueValidator.mjs:46-51 | `isAvailable: [true]`, `isAvailable: []` and `isAvailable: [[true]]` pass the update chain and are refused by the Boolean cast with nothing stored |
| MenuController.UpdateMenuItemIdempotent | controllers/MenueController.mjs:45-47 | repeating an update gives the same answer and store |
| MenuController.UpdateCanClearCategory | controllers/MenueController.mjs:45-47 | without the chain, an update can store an empty category, which creation would refuse |
| MenuController.DeleteMenuItem | controllers/MenueController.mjs:55-65 | an absent id takes the "already deleted" branch and changes nothing; otherwise exactly that item goes, and orders are untouched |
| MenuController.GetMenuItemAfterDelete | controllers/MenueController.mjs:14-65 | after a delete, `getMenuItem` answers NotFound for that id, and every other id reads as before |
| MenuController.DeleteTwiceNotFound | controllers/MenueController.mjs:57-60 | a second delete of the same item finds nothing |
| MessageModel.Create | models/Message.mjs:3-25 | creation succeeds exactly when email and message are non-empty; name and subject are optional; `read` is false |
| MessageController.SendMessage | controllers/MessageController.mjs:7-33 | a missing or empty email or message gives Validation and stores nothing; otherwise the four fields are stored as given, unread |
| MessageController.GetAllMessages | controllers/MessageController.mjs:39-51 | every stored message once, newest first, and `results` is the number returned |
| MessageController.ReadMessage | controllers/MessageController.mjs:57-81 | an absent id gives NotFound and changes nothing; otherwise only `read` becomes true |
| MessageController.ReadMessageIdempotent | controllers/MessageController.mjs:70-72 | reading twice gives the same answer and store as reading once |
| MessageController.SentMessageListedFirst | controllers/MessageController.mjs:41 | a message just sent heads the inbox, unread |
| OrderModel.ParseOrderType | models/Order.mjs:25-29 | exactly "delivery" and "pickup" are order types, and parsing inverts naming |
| OrderModel.ParseStatus | models/Order.mjs:33-37 | exactly the five status names parse, and parsing inverts naming |
| OrderModel.ParsePaymentStatus | models/Order.mjs:38-42 | exactly "pending", "paid" and "failed" parse, and parsing inverts naming |
| OrderModel.EnumRoundTrips | models/Order.mjs:25-42 | naming then parsing gives back each order type, status and payment status |
| OrderModel.Create | models/Order.mjs:3-45 | creation succeeds exactly when the order type is one of the two enum names and every line's quantity is at least 1, and the stored order keeps the lines, total and address given with both statuses pending |
| OrderValidator.CreateValid | validators/orderValidator.mjs:3-21 | the order chain: a non-empty `items` array, every line with an id and an integer quantity of at least 1, and an order type that is delivery or pickup |
| OrderController.Hits | controllers/OrderController.mjs:19-21 | the lookup finds each requested id that names an existing item, once |
| OrderController.HitsCount | controllers/OrderController.mjs:19-25 | the lookup finds as many items as there are lines exactly when every line names an existing item and no item is named twice |
| OrderController.LineFor | controllers/OrderController.mjs:32-36 | a stored line keeps the cart line's id and quantity and takes the catalogue price |
| OrderController.Snapshot | controllers/OrderController.mjs:29-37 | the stored lines follow the cart line by line, priced from the catalogue |
| OrderController.SnapshotTotal | controllers/OrderController.mjs:28-37 | the running total equals the sum of the stored lines' price times quantity |
| OrderController.PriceCart | controllers/OrderController.mjs:28-37 | the loop builds exactly the snapshot lines and the reference total |
| OrderController.PlaceOrder | controllers/OrderController.mjs:39-45 | the stored order has the cart's lines in order at catalogue prices, the total equals the sum of its lines, pending statuses, and is the only change |
| OrderController.CreateOrder | controllers/OrderController.mjs:4-53 | an empty cart, a delivery without an address, or any unknown or repeated item gives Validation; a schema refusal gives SchemaReject; success exactly when all checks pass; no failure stores anything; stored totals stay consistent |
| OrderController.SameLinesPriceAlike | controllers/OrderController.mjs:29-37 | carts agreeing on ids and quantities resolve, price and total alike |
| OrderController.PlaceOrderIgnoresPrices | controllers/OrderController.mjs:29-45 | accepted requests agreeing on ids, quantities, type and address place the same order |
| OrderController.CallerPricesIgnored | controllers/OrderController.mjs:29-37 | prices the caller puts in the cart never change the reply or the store |
| OrderController.DeliveryWithoutAddressPassesValidator | controllers/OrderController.mjs:14-16 | a delivery without an address passes the validator chain and is refused by the controller |
| OrderController.ValidatorCoversSchema | validators/orderValidator.mjs:3-21 | an accepted request passes the chain, and a request that passes it is never refused by the schema |
| OrderController.UpdateOrderStatus | controllers/OrderController.mjs:68-94 | an absent id gives NotFound; a status outside the four admin statuses, "cancelled" included, gives Validation; otherwise only the status changes |
| OrderController.CancelOrder | controllers/OrderController.mjs:96-118 | an absent id gives NotFound; a ready or delivered order gives Validation and is unchanged; otherwise only the status becomes cancelled |
| OrderController.CancelOrderIdempotent | controllers/OrderController.mjs:98-112 | a second cancel repeats the first reply and leaves the store as the first left it |
| ReservationModel.Create | models/Reservation.mjs:3-41 | creation succeeds exactly when the four required texts and the date are present, there is at least one guest, the price is at least 80 and any status is one of the three; the status defaults to pending |
| ReservationModel.Patch | controllers/ReservationController.mjs:65 | an update sets exactly the present fields, with no validator run |
| ReservationController.CreateReservation | controllers/ReservationController.mjs:4-11 | the body is stored exactly when the schema accepts it, as a schema-valid document; otherwise SchemaReject and nothing stored |
| ReservationController.GetReservations | controllers/ReservationController.mjs:26-53 | the page answer over the reservations, newest first, with the category listing's arithmetic |
| ReservationController.UpdateReservation | controllers/ReservationController.mjs:57-73 | an absent id stores nothing; otherwise the patch is stored and the answer is the document as it was before |
| ReservationController.CancelReservation | controllers/ReservationController.mjs:75-89 | whatever the status, it becomes cancelled and nothing else changes; the answer is the document before |
| ReservationController.PatchIdempotent | controllers/ReservationController.mjs:65 | the same update twice stores what it stores once |
| ReservationController.CancelReservationIdempotent | controllers/ReservationController.mjs:79-84 | a second cancel leaves the store identical and answers with the cancelled document |
| ReservationController.CancelKeepsSchema | controllers/ReservationController.mjs:79-81 | cancelling keeps a schema-valid reservation valid |
| ReservationController.PatchCanBreakSchema | controllers/ReservationController.mjs:65 | the admin update can store a price of 50, below the schema's floor |
| ReservationController.CreateExamples | models/Reservation.mjs:21-38 | a full booking is stored as pending; the same booking with no guests, a price of 50 or no price is refused |

## Left out

- HTTP detail. Status codes, JSON envelopes and messages are reduced to the four error kinds.
- The double response on the not-found path of `updateReservation`, `cancelReservation` and `deleteMenuItem`. The handler first answers "not found" or "already deleted" and then tries to answer success. The model keeps only the first answer, as `NotFound`.
- Concurrency. There are no races between the catalogue lookup and the order insert, and no last-write-wins between updates: each call is one atomic step.
- Timestamps. `createdAt` is represented only by creation order.
- ObjectId casting. A malformed id, which makes Mongoose throw a cast error, is not modelled; ids are natural numbers.
- Numbers. JavaScript numbers are modelled as integers, so fractional prices, floating-point rounding in `price * quantity`, and numeric strings passed where numbers are expected are not modelled.
- `Text.NumberText`: `String(n)` writes a number of magnitude 10^21 or more in exponent form, such as "1e+21"; the model writes every integer in plain decimal.
- `Text.Trim`: uses the ECMAScript white-space and line-terminator characters. Unicode categories are not modelled beyond the listed code points.
- Null versus undefined. The model uses `None` for an absent field. A JSON `null` description or icon, which `updateCat` would store as null, is not distinguished from an absent one.
- Non-string request values. `name.trim()` on a non-string name makes the handler throw; the model's names are strings. A non-array `items` is refused with 400 by the `!Array.isArray(items)` test, and the model reports it as `Validation` together with an absent `items`.
- `getOrders` is left out; it is only a `populate` join. `getReservationById` is left out; it is only a logging `findById`.
- Routes, the app set-up, the admin counts, the upload filter, the admin bootstrap script and the Swagger configuration are not part of this model. The only exception is the validator chains that routes/menueRoutes.mjs places in front of the add and update handlers.
- validators/reservationValidator.mjs is not wired into the create route, so it is not part of this model.
- The order routes and the middleware that turns validator failures into 400 answers are not part of this model. `OrderController.ValidatorCoversSchema` and `OrderController.DeliveryWithoutAddressPassesValidator` relate the order chain to the controller without assuming how it is mounted.
- `MenuValidator.AddIsUpdateWithRequiredFields`: express-validator reads `tags.*` and array values field by field. The model checks `tags` as a whole JSON value and treats names as strings.
- `OrderController.CreateOrder`: `Order.create` validates after the lines are priced. The model checks the schema first; since pricing has no effect of its own, the outcome is the same.
- `MenuModel.CastBool`: a `null` `isAvailable` is treated as a failed cast, although Mongoose would store null.
- `MenuModel.CastTags`: a `null` `tags` value is treated as a failed cast, although Mongoose would store null.
- `MenuModel.CastString`: a `null` tag element is treated as a failed cast, although Mongoose would keep it as null; a tag list holds only strings here. A JSON object, which Mongoose refuses unless it carries a string `_id` or its own `toString`, is not a value of the model's JSON type.
- `OrderModel.Create`: the `required` rules on each line's `menuItemId` and `quantity` are not stated here, because a stored line always has both. `OrderController.CreateOrder` states them instead: a cart line without an id resolves to no item and gives `Validation`, and, once the controller's checks pass, a cart line without a quantity gives `SchemaReject`.
- `ReservationModel.Create`: the reservation date is taken as an already-cast number. Parsing a date string, and failing on an invalid one, is not modelled.
- `ReservationModel.Patch`: a patch value whose cast fails, such as a non-numeric `guests`, would make `findByIdAndUpdate` throw. The model's typed bodies cannot express such a value.
- `MenuModel.Patch`: the model assumes the `trim` setter runs when an update is cast, so a patched name is stored trimmed.
- `Store.OldestFirst`: `find()` without a sort returns MongoDB's natural order, which the model takes to be creation order.

=== FILE: category_controller.dfy ===
/** controllers/categoryController.mjs: category create, listing, lookup,
    update and delete, with name uniqueness kept by the controller, and the
    grouping of available menu items under their category. */
module CategoryController {
  import opened Common
  import opened Text
  import opened Store
  import opened CategoryModel
  import MenuModel
  import Pagination

  /** A request body for creating or updating a category. */
  datatype CategoryBody = CategoryBody(name: Option<string>, description: Option<string>, icon: Option<string>)

  /** A category with the available items that name it. */
  datatype CategoryWithProducts = CategoryWithProducts(id: Id, category: Category, products: seq<Entry<MenuModel.MenuItem>>)

  /** `Category.findOne({name})` finds a document. */
  predicate NameTaken(t: Table<Category>, name: string) {
    exists id :: id in t.docs && t.docs[id].name == name
  }

  /** No two categories share a name. */
  predicate NamesUnique(t: Table<Category>) {
    forall a, b :: a in t.docs && b in t.docs && a != b ==> t.docs[a].name != t.docs[b].name
  }

  /** The invariant the controller keeps: unique names, each trimmed and
      non-empty. */
  predicate CategoriesWellFormed(t: Table<Category>) {
    NamesUnique(t) && forall id :: id in t.docs ==> SchemaValid(t.docs[id])
  }

  /** `createCat`: a blank name is refused, a name already in use (after
      trimming) conflicts, and otherwise the category is stored under its
      trimmed name. */
  function CreateCat(db: Db, b: CategoryBody): (r: Reply<Entry<Category>>)
    ensures r.outcome.Fail? ==> r.db == db
    ensures Blank(b.name) ==> r.outcome == Fail(Validation)
    ensures !Blank(b.name) && NameTaken(db.categories, Trim(b.name.value)) ==> r.outcome == Fail(Conflict)
    ensures r.outcome.Ok? <==> !Blank(b.name) && !NameTaken(db.categories, Trim(b.name.value))
    ensures r.outcome.Ok? ==>
      var e := r.outcome.value;
      && e.doc == Category(Trim(b.name.value), b.description, b.icon)
      && e.id !in db.categories.docs
      && r.db.categories.docs == db.categories.docs[e.id := e.doc]
      && r.db.categories.order == db.categories.order + [e.id]
      && r.db == db.(categories := r.db.categories)
    ensures CategoriesWellFormed(db.categories) ==> CategoriesWellFormed(r.db.categories)
  {
    if Blank(b.name) then
      Reply(Fail(Validation), db)
    else
      var name := Trim(b.name.value);
      if NameTaken(db.categories, name) then
        Reply(Fail(Conflict), db)
      else
        TrimEmptyIffAllSpace(name);
        TrimIdempotent(b.name.value);
        var created := Create(name, b.description, b.icon);
        assert created.Ok?;
        var (t, id) := Insert(db.categories, created.value);
        Reply(Ok(Entry(id, created.value)), db.(categories := t))
  }

  /** `getAllCate`: one page of the categories, newest first. */
  function GetAllCategories(db: Db, pageQuery: Option<int>, limitQuery: Option<int>): (p: Pagination.Page<Category>)
    ensures p.page == Pagination.Coerce(pageQuery, Pagination.DefaultPage)
    ensures p.limit == Pagination.Coerce(limitQuery, Pagination.DefaultLimit)
    ensures p.total == |db.categories.docs| && p.count == |p.data| <= p.limit
    ensures p.totalPages == Pagination.CeilDiv(p.total, p.limit)
    ensures p.data == Pagination.Slice(NewestFirst(db.categories), Pagination.Skip(p.page, p.limit), p.limit)
  {
    Pagination.List(db.categories, pageQuery, limitQuery)
  }

  /** `getById`. */
  function GetById(db: Db, id: Id): (r: Outcome<Entry<Category>>)
    ensures r.Ok? <==> id in db.categories.docs
    ensures r.Ok? ==> r.value == Entry(id, db.categories.docs[id])
    ensures r.Fail? ==> r.error == NotFound
  {
    if id in db.categories.docs then Ok(Entry(id, db.categories.docs[id])) else Fail(NotFound)
  }

  /** `getById` after a successful `createCat` finds the created category,
      and every other id reads as it did before. */
  lemma GetByIdAfterCreate(db: Db, b: CategoryBody, other: Id)
    ensures var c := CreateCat(db, b);
      c.outcome.Ok? ==>
        && GetById(c.db, c.outcome.value.id) == Ok(c.outcome.value)
        && (other != c.outcome.value.id ==> GetById(c.db, other) == GetById(db, other))
  {
  }

  /** `getById` after a successful `updateCat` finds the saved document, and
      every other id reads as it did before. */
  lemma GetByIdAfterUpdate(db: Db, id: Id, b: CategoryBody, other: Id)
    ensures var u := UpdateCat(db, id, b);
      u.outcome.Ok? ==>
        && GetById(u.db, id) == Ok(u.outcome.value)
        && (other != id ==> GetById(u.db, other) == GetById(db, other))
  {
  }

  /** `getById` after `deleteCat` answers NotFound for that id, and every
      other id reads as it did before. */
  lemma GetByIdAfterDelete(db: Db, id: Id, other: Id)
    ensures var d := DeleteCat(db, id);
      && GetById(d.db, id) == Fail(NotFound)
      && (other != id ==> GetById(d.db, other) == GetById(db, other))
  {
  }

  /** The name `updateCat` asks for counts as a rename: it is not blank and,
      trimmed, differs from the current name. */
  predicate Renames(b: CategoryBody, current: Category) {
    !Blank(b.name) && Trim(b.name.value) != current.name
  }

  /** `updateCat`: a rename to a name in use conflicts and changes nothing;
      otherwise a rename takes the trimmed name, a blank name keeps the old
      one, and an absent description or icon keeps the old value. */
  function UpdateCat(db: Db, id: Id, b: CategoryBody): (r: Reply<Entry<Category>>)
    ensures r.outcome.Fail? ==> r.db == db
    ensures id !in db.categories.docs ==> r.outcome == Fail(NotFound)
    ensures id in db.categories.docs ==>
      (Renames(b, db.categories.docs[id]) && NameTaken(db.categories, Trim(b.name.value)) <==> r.outcome == Fail(Conflict))
    ensures r.outcome.Ok? <==>
      (id in db.categories.docs && !(Renames(b, db.categories.docs[id]) && NameTaken(db.categories, Trim(b.name.value))))
    ensures r.outcome.Ok? ==>
      var prev := db.categories.docs[id];
      var e := r.outcome.value;
      && e.id == id
      && e.doc.name == (if Renames(b, prev) then Trim(b.name.value) else prev.name)
      && e.doc.description == (if b.description.Some? then b.description else prev.description)
      && e.doc.icon == (if b.icon.Some? then b.icon else prev.icon)
      && r.db == db.(categories := Replace(db.categories, id, e.doc))
    ensures CategoriesWellFormed(db.categories) ==> CategoriesWellFormed(r.db.categories)
  {
    if id !in db.categories.docs then
      Reply(Fail(NotFound), db)
    else if Renames(b, db.categories.docs[id]) && NameTaken(db.categories, Trim(b.name.value)) then
      Reply(Fail(Conflict), db)
    else
      var updated := Updated(db.categories.docs[id], b);
      UpdateKeepsWellFormed(db.categories, id, b);
      Reply(Ok(Entry(id, updated)), db.(categories := Replace(db.categories, id, updated)))
  }

  /** The document `updateCat` saves. */
  function Updated(current: Category, b: CategoryBody): (c: Category)
    ensures c.name == (if Renames(b, current) then Trim(b.name.value) else current.name)
    ensures c.description == (if b.description.Some? then b.description else current.description)
    ensures c.icon == (if b.icon.Some? then b.icon else current.icon)
    ensures SchemaValid(current) ==> SchemaValid(c)
  {
    if Renames(b, current) then
      TrimEmptyIffAllSpace(b.name.value);
      TrimIdempotent(b.name.value);
      Category(Trim(b.name.value),
        if b.description.Some? then b.description else current.description,
        if b.icon.Some? then b.icon else current.icon)
    else
      Category(current.name,
        if b.description.Some? then b.description else current.description,
        if b.icon.Some? then b.icon else current.icon)
  }

  /** A rename that does not collide keeps names unique and valid. */
  lemma UpdateKeepsWellFormed(t: Table<Category>, id: Id, b: CategoryBody)
    requires id in t.docs
    requires !(Renames(b, t.docs[id]) && NameTaken(t, Trim(b.name.value)))
    ensures CategoriesWellFormed(t) ==> CategoriesWellFormed(Replace(t, id, Updated(t.docs[id], b)))
  {
    var c := Updated(t.docs[id], b);
    var t' := Replace(t, id, c);
    if CategoriesWellFormed(t) {
      forall x, y | x in t'.docs && y in t'.docs && x != y
        ensures t'.docs[x].name != t'.docs[y].name
      {
        if x == id && Renames(b, t.docs[id]) {
          assert t.docs[y].name == t'.docs[y].name;
        } else if y == id && Renames(b, t.docs[id]) {
          assert t.docs[x].name == t'.docs[x].name;
        }
      }
    }
  }

  /** `deleteCat`: exactly the category goes; menu items that name it stay. */
  function DeleteCat(db: Db, id: Id): (r: Reply<()>)
    ensures id !in db.categories.docs ==> r == Reply(Fail(NotFound), db)
    ensures id in db.categories.docs ==>
      && r.outcome.Ok?
      && r.db.categories.docs.Keys == db.categories.docs.Keys - {id}
      && (forall k :: k in r.db.categories.docs ==> r.db.categories.docs[k] == db.categories.docs[k])
      && r.db == db.(categories := r.db.categories)
    ensures CategoriesWellFormed(db.categories) ==> CategoriesWellFormed(r.db.categories)
  {
    if id !in db.categories.docs then Reply(Fail(NotFound), db)
    else Reply(Ok(()), db.(categories := Delete(db.categories, id)))
  }

  /** The `MenuItem.find` filter of `getCategoriesWithProducts`: available
      and naming the category's id. */
  function Belongs(id: Id): MenuModel.MenuItem -> bool {
    (m: MenuModel.MenuItem) => m.isAvailable && m.category == DecimalText(id)
  }

  /** `getCategoriesWithProducts`: every category, newest first, with exactly
      the available menu items whose `category` is its id, newest first. */
  function GetCategoriesWithProducts(db: Db): (r: seq<CategoryWithProducts>)
    ensures |r| == |db.categories.order| == |db.categories.docs|
    ensures forall i :: 0 <= i < |r| ==> Entry(r[i].id, r[i].category) == NewestFirst(db.categories)[i]
    ensures forall i, e: Entry<MenuModel.MenuItem> :: 0 <= i < |r| ==>
      (e in r[i].products <==>
        e.id in db.menu.docs && e.doc == db.menu.docs[e.id] &&
        e.doc.isAvailable && e.doc.category == DecimalText(r[i].id))
    ensures forall i :: 0 <= i < |r| ==> Descending(r[i].products)
  {
    var categories := NewestFirst(db.categories);
    var items := NewestFirst(db.menu);
    ListingsAreExact(db.menu);
    assert Count(db.categories) == |categories|;
    forall id: Id ensures Descending(Where(items, Belongs(id))) {
      WhereDescending(items, Belongs(id));
    }
    seq(|categories|, i requires 0 <= i < |categories| =>
      CategoryWithProducts(categories[i].id, categories[i].doc, Where(items, Belongs(categories[i].id))))
  }

  /** No menu item is listed under two categories: distinct categories have
      distinct ids, and distinct ids have distinct decimal texts. */
  lemma ProductsDisjoint(db: Db, i: nat, j: nat, e: Entry<MenuModel.MenuItem>)
    requires i < j < |GetCategoriesWithProducts(db)|
    ensures !(e in GetCategoriesWithProducts(db)[i].products && e in GetCategoriesWithProducts(db)[j].products)
  {
    var r := GetCategoriesWithProducts(db);
    assert r[i].id > r[j].id;
    if e in r[i].products && e in r[j].products {
      DecimalTextInjective(r[i].id, r[j].id);
    }
  }

  /** After a category is deleted, the items that named it are still stored
      but are listed under no category. */
  lemma DeleteLeavesDanglingItems(db: Db, id: Id, e: Entry<MenuModel.MenuItem>)
    requires id in db.categories.docs
    requires e.id in db.menu.docs && e.doc == db.menu.docs[e.id] && e.doc.category == DecimalText(id)
    ensures var db' := DeleteCat(db, id).db;
      && e.id in db'.menu.docs && db'.menu.docs[e.id] == e.doc
      && forall g :: g in GetCategoriesWithProducts(db') ==> e !in g.products
  {
    var db' := DeleteCat(db, id).db;
    var r := GetCategoriesWithProducts(db');
    forall g | g in r ensures e !in g.products {
      var i :| 0 <= i < |r| && r[i] == g;
      assert g.id in db'.categories.docs;
      DecimalTextDistinct(g.id, id);
    }
  }
}

=== FILE: category_model.dfy ===
/** The Category document (models/Category.mjs). */
module CategoryModel {
  import opened Common
  import opened Text

  /** A stored category. `description` and `icon` are optional. */
  datatype Category = Category(name: string, description: Option<string>, icon: Option<string>)

  /** What the schema guarantees of a stored category: the name is present,
      non-empty and trimmed. The schema has no unique index on the name. */
  predicate SchemaValid(c: Category) {
    c.name != [] && Trimmed(c.name)
  }

  /** `Category.create`: the `trim` setter runs on the name, then the
      `required` validator refuses an empty string. */
  function Create(name: string, description: Option<string>, icon: Option<string>): (r: Outcome<Category>)
    ensures r.Ok? <==> !AllSpace(name)
    ensures r.Ok? ==> SchemaValid(r.value) && r.value.name == Trim(name)
    ensures r.Ok? ==> r.value.description == description && r.value.icon == icon
    ensures r.Fail? ==> r.error == SchemaReject
  {
    TrimEmptyIffAllSpace(name);
    var trimmed := Trim(name);
    if trimmed == [] then Fail(SchemaReject) else Ok(Category(trimmed, description, icon))
  }
}

=== FILE: common.dfy ===
/** Values shared by every part of the model: optional values, the error
    kinds a controller reports, and document identifiers. */
module Common {

  /** A value that may be absent, as an undefined field of a request body is. */
  datatype Option<+T> = None | Some(value: T)

  /** The kinds of failure a controller reports. HTTP status codes and
      response envelopes are not modelled; each failing branch of a
      controller is mapped to one of these. */
  datatype Error =
    | Validation    // a controller's own input check rejected the request
    | NotFound      // the addressed document does not exist
    | Conflict      // a uniqueness check failed
    | SchemaReject  // the document schema (required, enum, min, cast) refused the write

  /** The result of a controller: a success value or an error kind. */
  datatype Outcome<+T> = Ok(value: T) | Fail(error: Error)

  /** A JSON value of a request body, for the fields whose JSON type the
      validators or the schema casts inspect. Numbers are integers. */
  datatype Json = Null | Bool(b: bool) | Num(n: int) | Str(s: string) | Arr(elems: seq<Json>)

  /** A document identifier. The database generates these; the model draws
      them from a per-collection counter, so a later document has a larger id. */
  type Id = nat
}

=== FILE: menu_controller.dfy ===
/** controllers/MenueController.mjs, together with the validator chains that
    routes/menueRoutes.mjs puts in front of add and update. */
module MenuController {
  import opened Common
  import opened Text
  import opened Store
  import opened MenuModel
  import opened MenuValidator

  /** `MenuItem.find({isAvailable: true})`: the available items in creation
      order. */
  function Available(): MenuItem -> bool {
    (m: MenuItem) => m.isAvailable
  }

  /** `getMenu`: exactly the stored available items, oldest first. */
  function GetMenu(db: Db): (r: seq<Entry<MenuItem>>)
    ensures forall e: Entry<MenuItem> :: e in r <==>
      e.id in db.menu.docs && e.doc == db.menu.docs[e.id] && e.doc.isAvailable
    ensures forall i, j :: 0 <= i < j < |r| ==> r[i].id < r[j].id
    ensures |r| <= |db.menu.docs|
  {
    ListingsAreExact(db.menu);
    var all := OldestFirst(db.menu);
    var r := Where(all, Available());
    WhereAscending(all, Available());
    assert Count(db.menu) == |all|;
    r
  }

  /** `getMenuItem`. */
  function GetMenuItem(db: Db, id: Id): (r: Outcome<Entry<MenuItem>>)
    ensures r.Ok? <==> id in db.menu.docs
    ensures r.Ok? ==> r.value == Entry(id, db.menu.docs[id])
    ensures r.Fail? ==> r.error == NotFound
  {
    if id in db.menu.docs then Ok(Entry(id, db.menu.docs[id])) else Fail(NotFound)
  }

  /** `addMenuItem`: `MenuItem.create` with the body; a schema rejection
      stores nothing. */
  function AddMenuItem(db: Db, b: MenuBody): (r: Reply<Entry<MenuItem>>)
    ensures r.outcome.Ok? <==> Create(b).Ok?
    ensures r.outcome.Fail? ==> r == Reply(Fail(SchemaReject), db)
    ensures r.outcome.Ok? ==>
      var e := r.outcome.value;
      && e.doc == Create(b).value
      && e.id !in db.menu.docs
      && r.db.menu.docs == db.menu.docs[e.id := e.doc]
      && r.db.menu.order == db.menu.order + [e.id]
      && r.db == db.(menu := r.db.menu)
  {
    match Create(b)
    case Fail(err) => Reply(Fail(err), db)
    case Ok(item) =>
      var (t, id) := Insert(db.menu, item);
      Reply(Ok(Entry(id, item)), db.(menu := t))
  }

  /** `getMenuItem` after a successful `addMenuItem` finds the stored item,
      and every other id reads as it did before. */
  lemma GetMenuItemAfterAdd(db: Db, b: MenuBody, other: Id)
    ensures var a := AddMenuItem(db, b);
      a.outcome.Ok? ==>
        && GetMenuItem(a.db, a.outcome.value.id) == Ok(a.outcome.value)
        && (other != a.outcome.value.id ==> GetMenuItem(a.db, other) == GetMenuItem(db, other))
  {
  }

  /** `POST /api/menu`: the add chain, then `addMenuItem`. */
  function AddRoute(db: Db, b: MenuBody): (r: Reply<Entry<MenuItem>>)
    ensures !AddValid(b) ==> r == Reply(Fail(Validation), db)
    ensures AddValid(b) ==> r == AddMenuItem(db, b)
  {
    if AddValid(b) then AddMenuItem(db, b) else Reply(Fail(Validation), db)
  }

  /** A body the add chain accepts is stored exactly when its name is not
      all white space: the chain checks the untrimmed length, the schema
      trims first. */
  lemma AddRouteStores(db: Db, b: MenuBody)
    requires AddValid(b)
    ensures AddRoute(db, b).outcome.Ok? <==> !AllSpace(b.name.value) && Casts(b)
  {
  }

  /** A name of two spaces passes the add chain and is then refused by the
      schema. */
  lemma BlankNamePassesValidator(db: Db)
    ensures var b := MenuBody(Some("  "), None, Some(5), None, Some("1"), None, None);
      && AddValid(b)
      && AddRoute(db, b) == Reply(Fail(SchemaReject), db)
  {
    var b := MenuBody(Some("  "), None, Some(5), None, Some("1"), None, None);
    assert AllSpace(b.name.value) by {
      assert forall i :: 0 <= i < 2 ==> b.name.value[i] == ' ';
    }
  }

  /** `updateMenuItem`: `findByIdAndUpdate(id, body, {new: true})`. A body
      whose casts fail is refused; an unknown id answers success with no
      item and writes nothing; otherwise the patched item is stored and
      returned. No schema validator runs. */
  function UpdateMenuItem(db: Db, id: Id, b: MenuBody): (r: Reply<Option<Entry<MenuItem>>>)
    ensures !Casts(b) ==> r == Reply(Fail(SchemaReject), db)
    ensures Casts(b) && id !in db.menu.docs ==> r == Reply(Ok(None), db)
    ensures Casts(b) && id in db.menu.docs ==>
      && r.outcome == Ok(Some(Entry(id, Patch(db.menu.docs[id], b))))
      && r.db == db.(menu := Replace(db.menu, id, Patch(db.menu.docs[id], b)))
  {
    if !Casts(b) then Reply(Fail(SchemaReject), db)
    else if id !in db.menu.docs then Reply(Ok(None), db)
    else
      var item := Patch(db.menu.docs[id], b);
      Reply(Ok(Some(Entry(id, item))), db.(menu := Replace(db.menu, id, item)))
  }

  /** `PUT /api/menu/:id`: the update chain, then `updateMenuItem`. */
  function UpdateRoute(db: Db, id: Id, b: MenuBody): (r: Reply<Option<Entry<MenuItem>>>)
    ensures !UpdateValid(b) ==> r == Reply(Fail(Validation), db)
    ensures UpdateValid(b) ==> r == UpdateMenuItem(db, id, b)
  {
    if UpdateValid(b) then UpdateMenuItem(db, id, b) else Reply(Fail(Validation), db)
  }

  /** Past the update chain, the update succeeds unless `isAvailable` is an
      array, which the chain passes and the Boolean cast refuses. */
  lemma ValidatedUpdateSucceeds(db: Db, id: Id, b: MenuBody)
    requires UpdateValid(b)
    ensures UpdateRoute(db, id, b).outcome.Ok? <==> (b.isAvailable.None? || !b.isAvailable.value.Arr?)
    ensures UpdateRoute(db, id, b).outcome.Fail? ==> UpdateRoute(db, id, b) == Reply(Fail(SchemaReject), db)
  {
    UpdateValidCasts(b);
  }

  /** `isAvailable: [true]`, `isAvailable: []` and `isAvailable: [[true]]`
      pass the update chain and are then refused by the cast, leaving the
      store unchanged. */
  lemma ArrayAvailablePassesValidator(db: Db, id: Id)
    ensures var b := MenuBody(None, None, None, None, None, None, Some(Arr([Bool(true)])));
      UpdateValid(b) && UpdateRoute(db, id, b) == Reply(Fail(SchemaReject), db)
    ensures var b := MenuBody(None, None, None, None, None, None, Some(Arr([])));
      UpdateValid(b) && UpdateRoute(db, id, b) == Reply(Fail(SchemaReject), db)
    ensures var b := MenuBody(None, None, None, None, None, None, Some(Arr([Arr([Bool(true)])])));
      UpdateValid(b) && UpdateRoute(db, id, b) == Reply(Fail(SchemaReject), db)
  {
  }

  /** Repeating an update changes nothing more. */
  lemma UpdateMenuItemIdempotent(db: Db, id: Id, b: MenuBody)
    ensures var once := UpdateMenuItem(db, id, b);
      UpdateMenuItem(once.db, id, b) == once
  {
    if Casts(b) && id in db.menu.docs {
      PatchIdempotent(db.menu.docs[id], b);
      var once := UpdateMenuItem(db, id, b);
      assert once.db.menu.docs[id] == Patch(db.menu.docs[id], b);
    }
  }

  /** An update may blank out what `addMenuItem` requires: the schema's
      `required` is not enforced on updates, so a stored item can lose its
      category. */
  lemma UpdateCanClearCategory(db: Db, id: Id)
    requires id in db.menu.docs
    ensures var b := MenuBody(None, None, None, None, Some(""), None, None);
      && !UpdateValid(b)
      && UpdateMenuItem(db, id, b).outcome.Ok?
      && !SchemaValid(UpdateMenuItem(db, id, b).db.menu.docs[id])
  {
  }

  /** `deleteMenuItem`: an unknown id answers "already deleted"; otherwise
      exactly that item goes and the deleted item is returned. Orders that
      reference it keep their snapshot lines. */
  function DeleteMenuItem(db: Db, id: Id): (r: Reply<Entry<MenuItem>>)
    ensures id !in db.menu.docs ==> r == Reply(Fail(NotFound), db)
    ensures id in db.menu.docs ==>
      && r.outcome == Ok(Entry(id, db.menu.docs[id]))
      && r.db.menu.docs.Keys == db.menu.docs.Keys - {id}
      && (forall k :: k in r.db.menu.docs ==> r.db.menu.docs[k] == db.menu.docs[k])
      && r.db == db.(menu := r.db.menu)
  {
    if id !in db.menu.docs then Reply(Fail(NotFound), db)
    else Reply(Ok(Entry(id, db.menu.docs[id])), db.(menu := Delete(db.menu, id)))
  }

  /** `getMenuItem` after `updateMenuItem` finds the returned item. */
  lemma GetMenuItemAfterUpdate(db: Db, id: Id, b: MenuBody)
    ensures var u := UpdateMenuItem(db, id, b);
      u.outcome.Ok? && u.outcome.value.Some? ==> GetMenuItem(u.db, id) == Ok(u.outcome.value.value)
  {
  }

  /** `getMenuItem` after `deleteMenuItem` answers NotFound for that id, and
      every other id reads as it did before. */
  lemma GetMenuItemAfterDelete(db: Db, id: Id, other: Id)
    ensures var d := DeleteMenuItem(db, id);
      && GetMenuItem(d.db, id) == Fail(NotFound)
      && (other != id ==> GetMenuItem(d.db, other) == GetMenuItem(db, other))
  {
  }

  /** A second delete of the same item finds nothing. */
  lemma DeleteTwiceNotFound(db: Db, id: Id)
    requires id in db.menu.docs
    ensures var once := DeleteMenuItem(db, id).db;
      DeleteMenuItem(once, id) == Reply(Fail(NotFound), once)
  {
  }
}

=== FILE: menu_model.dfy ===
/** The MenuItem document (models/Menu.mjs) and the casts Mongoose applies
    when a request body is written into it. */
module MenuModel {
  import opened Common
  import opened Text

  /** A stored menu item. `category` is a plain string: the schema does not
      make it a reference, so it may name no category at all. */
  datatype MenuItem = MenuItem(
    name: string,
    description: Option<string>,
    price: int,
    image: Option<string>,
    category: string,
    tags: seq<string>,
    isAvailable: bool)

  /** A request body for adding or patching a menu item. Absent fields are
      `None`; `tags` and `isAvailable` keep their JSON type because the
      validators and the casts inspect it. Prices are integers. */
  datatype MenuBody = MenuBody(
    name: Option<string>,
    description: Option<string>,
    price: Option<int>,
    image: Option<string>,
    category: Option<string>,
    tags: Option<Json>,
    isAvailable: Option<Json>)

  /** The default of `isAvailable` when a new item does not give one. */
  const AvailableByDefault := true

  /** Mongoose's String cast of one value: a string is kept, a number or a
      boolean becomes its text, and an array fails. A `null` element, which
      Mongoose would keep as null, fails here too. */
  function CastString(v: Json): (r: Option<string>)
    ensures r.Some? <==> v.Str? || v.Num? || v.Bool?
    ensures v.Str? ==> r == Some(v.s)
    ensures v.Num? ==> r == Some(NumberText(v.n))
    ensures v.Bool? ==> r == Some(if v.b then "true" else "false")
  {
    match v
    case Str(s) => Some(s)
    case Num(n) => Some(NumberText(n))
    case Bool(b) => Some(if b then "true" else "false")
    case _ => None
  }

  /** The element-wise String cast of a JSON array: it succeeds when every
      element casts, and keeps the elements' order. */
  function Strings(xs: seq<Json>): (r: Option<seq<string>>)
    ensures r.Some? <==> forall i :: 0 <= i < |xs| ==> CastString(xs[i]).Some?
    ensures r.Some? ==> |r.value| == |xs| && forall i :: 0 <= i < |xs| ==> Some(r.value[i]) == CastString(xs[i])
  {
    if xs == [] then Some([])
    else
      match Strings(xs[..|xs| - 1])
      case None => None
      case Some(init) =>
        match CastString(xs[|xs| - 1])
        case None => None
        case Some(last) => Some(init + [last])
  }

  /** Casting a value to the `[String]` tag list. An array is cast element by
      element; any other value is first wrapped in a one-element array. */
  function CastTags(v: Json): (r: Option<seq<string>>)
    ensures v.Arr? ==> (r.Some? <==> forall i :: 0 <= i < |v.elems| ==> CastString(v.elems[i]).Some?)
    ensures v.Arr? && r.Some? ==>
      |r.value| == |v.elems| && forall i :: 0 <= i < |v.elems| ==> Some(r.value[i]) == CastString(v.elems[i])
    ensures !v.Arr? ==> (r.Some? <==> CastString(v).Some?)
    ensures !v.Arr? && r.Some? ==> r.value == [CastString(v).value]
  {
    if v.Arr? then Strings(v.elems) else Strings([v])
  }

  /** An array of strings casts to exactly those strings, in order. */
  lemma StringTagsKept(xs: seq<string>)
    ensures CastTags(Arr(seq(|xs|, i requires 0 <= i < |xs| => Str(xs[i])))) == Some(xs)
  {
    var v := Arr(seq(|xs|, i requires 0 <= i < |xs| => Str(xs[i])));
    assert forall i :: 0 <= i < |xs| ==> CastString(v.elems[i]) == Some(xs[i]);
    var r := CastTags(v);
    assert r.Some?;
    assert r.value == xs;
  }

  /** What the cast makes of values that are not arrays of strings: a single
      tag is wrapped, numbers and booleans become their text, and a nested
      array or a `null` is refused. */
  lemma TagCastExamples()
    ensures CastTags(Str("spicy")) == Some(["spicy"])
    ensures CastTags(Arr([Num(1), Bool(true), Str("vegan")])) == Some(["1", "true", "vegan"])
    ensures CastTags(Num(-7)) == Some(["-7"])
    ensures CastTags(Arr([Str("a"), Arr([])])) == None
    ensures CastTags(Null) == None
  {
    assert DecimalText(1) == "1";
    assert DecimalText(7) == "7";
    assert NumberText(-7) == "-7";
    assert CastString(Num(-7)) == Some("-7");
    var n := CastTags(Num(-7));
    assert n.Some?;
    assert n.value == ["-7"];
    var a := CastTags(Arr([Num(1), Bool(true), Str("vegan")]));
    assert a.Some?;
    assert a.value == ["1", "true", "vegan"];
  }

  /** Mongoose's Boolean cast: `true`, "true", 1, "1" and "yes" give true;
      `false`, "false", 0, "0" and "no" give false; anything else fails. */
  function CastBool(v: Json): (r: Option<bool>)
    ensures r == Some(true) <==> v in {Bool(true), Str("true"), Num(1), Str("1"), Str("yes")}
    ensures r == Some(false) <==> v in {Bool(false), Str("false"), Num(0), Str("0"), Str("no")}
  {
    match v
    case Bool(b) => Some(b)
    case Num(n) => if n == 1 then Some(true) else if n == 0 then Some(false) else None
    case Str(s) =>
      if s == "true" || s == "1" || s == "yes" then Some(true)
      else if s == "false" || s == "0" || s == "no" then Some(false)
      else None
    case _ => None
  }

  /** The casts of a body's typed fields succeed. */
  predicate Casts(b: MenuBody) {
    && (b.tags.None? || CastTags(b.tags.value).Some?)
    && (b.isAvailable.None? || CastBool(b.isAvailable.value).Some?)
  }

  /** What the schema guarantees of a created item: a trimmed non-empty name
      and a non-empty category. The price is required but may be any number. */
  predicate SchemaValid(m: MenuItem) {
    m.name != [] && Trimmed(m.name) && m.category != []
  }

  /** `MenuItem.create(body)`: casts, the `trim` setter on the name, the
      `required` validators on name, price and category, and the defaults
      (no tags, available). */
  function Create(b: MenuBody): (r: Outcome<MenuItem>)
    ensures r.Ok? <==>
      && b.name.Some? && !AllSpace(b.name.value)
      && b.price.Some?
      && b.category.Some? && b.category.value != []
      && Casts(b)
    ensures r.Fail? ==> r.error == SchemaReject
    ensures r.Ok? ==> SchemaValid(r.value)
    ensures r.Ok? ==>
      && r.value.name == Trim(b.name.value)
      && r.value.price == b.price.value
      && r.value.category == b.category.value
      && r.value.description == b.description
      && r.value.image == b.image
    ensures r.Ok? ==> (b.tags.None? ==> r.value.tags == []) && (b.tags.Some? ==> Some(r.value.tags) == CastTags(b.tags.value))
    ensures r.Ok? ==> r.value.isAvailable == (if b.isAvailable.None? then AvailableByDefault else CastBool(b.isAvailable.value).value)
  {
    if b.name.None? || b.price.None? || b.category.None? || b.category.value == [] || !Casts(b) then
      Fail(SchemaReject)
    else
      TrimEmptyIffAllSpace(b.name.value);
      var name := Trim(b.name.value);
      if name == [] then Fail(SchemaReject)
      else
        Ok(MenuItem(
          name, b.description, b.price.value, b.image, b.category.value,
          if b.tags.None? then [] else CastTags(b.tags.value).value,
          if b.isAvailable.None? then AvailableByDefault else CastBool(b.isAvailable.value).value))
  }

  /** A `$set` of the body's present fields, as `findByIdAndUpdate` applies it:
      casts and setters run, validators (`required`) do not. */
  function Patch(m: MenuItem, b: MenuBody): (r: MenuItem)
    requires Casts(b)
    ensures b.name.None? ==> r.name == m.name
    ensures b.name.Some? ==> r.name == Trim(b.name.value)
    ensures r.description == (if b.description.Some? then b.description else m.description)
    ensures r.price == (if b.price.Some? then b.price.value else m.price)
    ensures r.image == (if b.image.Some? then b.image else m.image)
    ensures r.category == (if b.category.Some? then b.category.value else m.category)
    ensures r.tags == (if b.tags.Some? then CastTags(b.tags.value).value else m.tags)
    ensures r.isAvailable == (if b.isAvailable.Some? then CastBool(b.isAvailable.value).value else m.isAvailable)
  {
    MenuItem(
      if b.name.Some? then Trim(b.name.value) else m.name,
      if b.description.Some? then b.description else m.description,
      if b.price.Some? then b.price.value else m.price,
      if b.image.Some? then b.image else m.image,
      if b.category.Some? then b.category.value else m.category,
      if b.tags.Some? then CastTags(b.tags.value).value else m.tags,
      if b.isAvailable.Some? then CastBool(b.isAvailable.value).value else m.isAvailable)
  }

  /** Applying the same patch twice is applying it once: every patched field
      is set to a value that does not depend on the item, and the name's
      trim is idempotent. */
  lemma PatchIdempotent(m: MenuItem, b: MenuBody)
    requires Casts(b)
    ensures Patch(Patch(m, b), b) == Patch(m, b)
  {
    var p := Patch(m, b);
    var q := Patch(p, b);
    if b.name.Some? {
      TrimIdempotent(b.name.value);
    }
    assert q.name == p.name;
    assert q.tags == p.tags && q.isAvailable == p.isAvailable;
  }
}

=== FILE: menu_validator.dfy ===
/** The request checks of validators/menueValidator.mjs, as predicates on a
    menu request body. `optional()` skips a field only when it is absent. */
module MenuValidator {
  import opened Common
  import opened MenuModel

  /** The shortest name either chain accepts. */
  const MinNameLength := 2

  /** `isLength({min: 2})` on the name. */
  predicate NameLongEnough(name: string) {
    |name| >= MinNameLength
  }

  /** `isFloat({gt: 0})` on the price. */
  predicate PricePositive(price: int) {
    price > 0
  }

  /** `isArray()` on `tags` and `isString()` on every `tags.*`. */
  predicate TagsAreStrings(v: Json) {
    v.Arr? && forall i :: 0 <= i < |v.elems| ==> v.elems[i].Str?
  }

  /** `notEmpty()` then `isBoolean()` on a single value: its text must be one
      of "true", "false", "1" and "0". `null` has the empty text and fails.
      An array's text joins its elements' texts with commas, and none of the
      four texts holds a comma, so an array passes exactly when it has one
      element that passes. */
  predicate BooleanScalar(v: Json) {
    match v
    case Bool(_) => true
    case Num(n) => n == 0 || n == 1
    case Str(s) => s in ["true", "false", "1", "0"]
    case Arr(es) => |es| == 1 && BooleanScalar(es[0])
    case Null => false
  }

  /** The same chain on a value that may be an array: express-validator runs
      each standard validator on every element of an array, so an array
      passes when each element does, and the empty array passes. */
  predicate BooleanLike(v: Json) {
    match v
    case Arr(es) => forall i :: 0 <= i < |es| ==> BooleanScalar(es[i])
    case _ => BooleanScalar(v)
  }

  /** `addMenuItemValidation`: name, price and category are required; tags
      are optional. `isAvailable` is not checked. */
  predicate AddValid(b: MenuBody) {
    && b.name.Some? && b.name.value != [] && NameLongEnough(b.name.value)
    && b.price.Some? && PricePositive(b.price.value)
    && b.category.Some? && b.category.value != []
    && (b.tags.None? || TagsAreStrings(b.tags.value))
  }

  /** `updateMenuItemValidation`: every field is optional, and a present one
      meets the same rule as in `AddValid`; a present `isAvailable` must be
      boolean-like. */
  predicate UpdateValid(b: MenuBody) {
    && (b.name.None? || NameLongEnough(b.name.value))
    && (b.price.None? || PricePositive(b.price.value))
    && (b.category.None? || b.category.value != [])
    && (b.tags.None? || TagsAreStrings(b.tags.value))
    && (b.isAvailable.None? || BooleanLike(b.isAvailable.value))
  }

  /** The add chain is the update chain with name, price and category made
      mandatory and `isAvailable` left unchecked. */
  lemma AddIsUpdateWithRequiredFields(b: MenuBody)
    ensures AddValid(b) <==>
      && b.name.Some? && b.price.Some? && b.category.Some?
      && UpdateValid(b.(isAvailable := None))
  {
  }

  /** A body the update chain accepts fails the schema casts exactly when
      its `isAvailable` is an array: the chain passes an array element by
      element, and Mongoose's Boolean cast refuses every array. */
  lemma UpdateValidCasts(b: MenuBody)
    requires UpdateValid(b)
    ensures Casts(b) <==> (b.isAvailable.None? || !b.isAvailable.value.Arr?)
  {
    if b.isAvailable.Some? {
      var v := b.isAvailable.value;
      assert v.Str? ==> v.s in ["true", "false", "1", "0"];
    }
  }
}

=== FILE: message_controller.dfy ===
/** controllers/MessageController.mjs: the public contact form and the
    admin inbox. */
module MessageController {
  import opened Common
  import opened Text
  import opened Store
  import opened MessageModel

  /** The fields `sendMessage` takes from the request body. */
  datatype MessageBody = MessageBody(name: Option<string>, email: Option<string>, subject: Option<string>, message: Option<string>)

  /** `sendMessage`: a missing or empty email or message is refused before
      anything is stored; otherwise the four fields are stored as given,
      unread. */
  function SendMessage(db: Db, b: MessageBody): (r: Reply<Entry<Message>>)
    ensures r.outcome.Ok? <==> !Falsy(b.email) && !Falsy(b.message)
    ensures r.outcome.Fail? ==> r == Reply(Fail(Validation), db)
    ensures r.outcome.Ok? ==>
      var e := r.outcome.value;
      && e.doc == Message(b.name, b.email.value, b.subject, b.message.value, false)
      && e.id !in db.messages.docs
      && r.db.messages.docs == db.messages.docs[e.id := e.doc]
      && r.db.messages.order == db.messages.order + [e.id]
      && r.db == db.(messages := r.db.messages)
  {
    if Falsy(b.email) || Falsy(b.message) then Reply(Fail(Validation), db)
    else
      var doc := Create(b.name, b.email, b.subject, b.message).value;
      var (t, id) := Insert(db.messages, doc);
      Reply(Ok(Entry(id, doc)), db.(messages := t))
  }

  /** The answer of `getAllMessages`: the count and the messages. */
  datatype Inbox = Inbox(results: nat, data: seq<Entry<Message>>)

  /** `getAllMessages`: every stored message once, newest first, with
      `results` the number returned. */
  function GetAllMessages(db: Db): (r: Inbox)
    ensures r.results == |r.data| == |db.messages.docs|
    ensures forall e: Entry<Message> :: e in r.data <==> e.id in db.messages.docs && e.doc == db.messages.docs[e.id]
    ensures Descending(r.data)
  {
    ListingsAreExact(db.messages);
    var data := NewestFirst(db.messages);
    assert Count(db.messages) == |data|;
    Inbox(|data|, data)
  }

  /** `readMessage`: an unknown id is refused and nothing changes; otherwise
      the message is marked read, nothing else changes, and the saved
      document is returned. */
  function ReadMessage(db: Db, id: Id): (r: Reply<Entry<Message>>)
    ensures id !in db.messages.docs ==> r == Reply(Fail(NotFound), db)
    ensures id in db.messages.docs ==>
      && r.outcome == Ok(Entry(id, db.messages.docs[id].(read := true)))
      && r.db == db.(messages := Replace(db.messages, id, db.messages.docs[id].(read := true)))
  {
    if id !in db.messages.docs then Reply(Fail(NotFound), db)
    else
      var msg := db.messages.docs[id].(read := true);
      Reply(Ok(Entry(id, msg)), db.(messages := Replace(db.messages, id, msg)))
  }

  /** Reading a message twice gives the same answer and store as reading
      it once. */
  lemma ReadMessageIdempotent(db: Db, id: Id)
    ensures var once := ReadMessage(db, id);
      ReadMessage(once.db, id) == once
  {
    if id in db.messages.docs {
      var once := ReadMessage(db, id);
      assert once.db.messages.docs[id := once.db.messages.docs[id]] == once.db.messages.docs;
    }
  }

  /** A sent message appears at the head of the inbox, unread. */
  lemma SentMessageListedFirst(db: Db, b: MessageBody)
    requires !Falsy(b.email) && !Falsy(b.message)
    ensures var r := SendMessage(db, b);
      && GetAllMessages(r.db).data[0] == r.outcome.value
      && !GetAllMessages(r.db).data[0].doc.read
  {
    var r := SendMessage(db, b);
    assert r.db.messages.order[|r.db.messages.order| - 1] == r.outcome.value.id;
  }
}

=== FILE: message_model.dfy ===
/** The Message document (models/Message.mjs). */
module MessageModel {
  import opened Common

  /** A stored contact message. `name` and `subject` are optional. */
  datatype Message = Message(
    name: Option<string>,
    email: string,
    subject: Option<string>,
    message: string,
    read: bool)

  /** A new message has not been read. */
  const ReadByDefault := false

  /** `Message.create`: `email` and `message` are required (an empty string
      fails `required`); `read` takes its default. */
  function Create(name: Option<string>, email: Option<string>, subject: Option<string>, message: Option<string>): (r: Option<Message>)
    ensures r.Some? <==> email.Some? && email.value != [] && message.Some? && message.value != []
    ensures r.Some? ==>
      && r.value.name == name && r.value.email == email.value
      && r.value.subject == subject && r.value.message == message.value
      && r.value.read == ReadByDefault
  {
    if email.Some? && email.value != [] && message.Some? && message.value != [] then
      Some(Message(name, email.value, subject, message.value, ReadByDefault))
    else
      None
  }
}

=== FILE: order_controller.dfy ===
/** controllers/OrderController.mjs: creating an order from a cart priced
    from the catalogue, the admin status update, and cancellation. */
module OrderController {
  import opened Common
  import opened Text
  import opened Store
  import opened OrderModel
  import MenuModel
  import OrderValidator

  /** The statuses the admin update accepts. "cancelled" is not among them. */
  const AdminStatuses: seq<string> := ["pending", "preparing", "ready", "delivered"]

  /** The ids the lines of a cart request, in order (`items.map(i => i.menuItemId)`). */
  function RequestedIds(cart: seq<CartLine>): (r: seq<Option<Id>>)
    ensures |r| == |cart| && forall i :: 0 <= i < |cart| ==> r[i] == cart[i].menuItemId
  {
    seq(|cart|, i requires 0 <= i < |cart| => cart[i].menuItemId)
  }

  /** The ids `MenuItem.find({_id: {$in: ids}})` returns: each requested id
      that names an existing item, once however often it is requested. */
  function Hits(cart: seq<CartLine>, catalog: set<Id>): (r: set<Id>)
    ensures forall id :: id in r <==> id in catalog && Some(id) in RequestedIds(cart)
  {
    if cart == [] then {}
    else
      var last := cart[|cart| - 1].menuItemId;
      var rest := Hits(cart[..|cart| - 1], catalog);
      assert RequestedIds(cart) == RequestedIds(cart[..|cart| - 1]) + [last];
      if last.Some? && last.value in catalog then rest + {last.value} else rest
  }

  /** Every line names an item of the catalogue. */
  predicate Resolved(cart: seq<CartLine>, catalog: set<Id>) {
    forall i :: 0 <= i < |cart| ==> cart[i].menuItemId.Some? && cart[i].menuItemId.value in catalog
  }

  /** No two lines name the same item. */
  predicate UniqueIds(cart: seq<CartLine>) {
    forall i, j :: 0 <= i < j < |cart| ==> cart[i].menuItemId != cart[j].menuItemId
  }

  /** The last line names no item of the catalogue. */
  lemma HitsUnresolvedLast(cart: seq<CartLine>, catalog: set<Id>)
    requires cart != []
    requires cart[|cart| - 1].menuItemId.None? || cart[|cart| - 1].menuItemId.value !in catalog
    ensures Hits(cart, catalog) == Hits(cart[..|cart| - 1], catalog)
    ensures !Resolved(cart, catalog)
  {
  }

  /** The last line repeats an item an earlier line already found. */
  lemma HitsRepeatedLast(cart: seq<CartLine>, catalog: set<Id>)
    requires cart != [] && cart[|cart| - 1].menuItemId.Some?
    requires cart[|cart| - 1].menuItemId.value in Hits(cart[..|cart| - 1], catalog)
    ensures Hits(cart, catalog) == Hits(cart[..|cart| - 1], catalog)
    ensures !UniqueIds(cart)
  {
    var init := cart[..|cart| - 1];
    var i :| 0 <= i < |init| && RequestedIds(init)[i] == cart[|cart| - 1].menuItemId;
    assert cart[i] == init[i];
  }

  /** The last line finds an item no earlier line found: the lookup finds
      one more item. */
  lemma HitsNewLast(cart: seq<CartLine>, catalog: set<Id>)
    requires cart != [] && cart[|cart| - 1].menuItemId.Some?
    requires cart[|cart| - 1].menuItemId.value in catalog
    requires cart[|cart| - 1].menuItemId.value !in Hits(cart[..|cart| - 1], catalog)
    ensures |Hits(cart, catalog)| == |Hits(cart[..|cart| - 1], catalog)| + 1
    ensures forall i :: 0 <= i < |cart| - 1 ==> cart[i].menuItemId != cart[|cart| - 1].menuItemId
  {
    var init := cart[..|cart| - 1];
    var last := cart[|cart| - 1].menuItemId;
    assert Hits(cart, catalog) == Hits(init, catalog) + {last.value};
    forall i | 0 <= i < |init| ensures cart[i].menuItemId != last {
      assert RequestedIds(init)[i] == init[i].menuItemId == cart[i].menuItemId;
    }
  }

  /** A cart whose last line names an item no other line names is resolved
      and unique exactly when the lines before it are. */
  lemma UniqueExtend(cart: seq<CartLine>, catalog: set<Id>)
    requires cart != [] && cart[|cart| - 1].menuItemId.Some?
    requires cart[|cart| - 1].menuItemId.value in catalog
    requires forall i :: 0 <= i < |cart| - 1 ==> cart[i].menuItemId != cart[|cart| - 1].menuItemId
    ensures Resolved(cart, catalog) && UniqueIds(cart) <==>
      Resolved(cart[..|cart| - 1], catalog) && UniqueIds(cart[..|cart| - 1])
  {
    var init := cart[..|cart| - 1];
    assert forall i :: 0 <= i < |init| ==> init[i] == cart[i];
  }

  /** The lookup finds as many items as there are lines exactly when every
      line names an existing item and no item is named twice: the check
      `menuItems.length !== items.length` rejects unknown ids and repeated
      ids alike. */
  lemma {:induction false} HitsCount(cart: seq<CartLine>, catalog: set<Id>)
    ensures |Hits(cart, catalog)| <= |cart|
    ensures |Hits(cart, catalog)| == |cart| <==> Resolved(cart, catalog) && UniqueIds(cart)
  {
    if cart != [] {
      var init := cart[..|cart| - 1];
      var last := cart[|cart| - 1].menuItemId;
      HitsCount(init, catalog);
      if last.None? || last.value !in catalog {
        HitsUnresolvedLast(cart, catalog);
      } else if last.value in Hits(init, catalog) {
        HitsRepeatedLast(cart, catalog);
      } else {
        HitsNewLast(cart, catalog);
        UniqueExtend(cart, catalog);
      }
    }
  }

  /** Every line gives a quantity. */
  predicate QuantitiesPresent(cart: seq<CartLine>) {
    forall i :: 0 <= i < |cart| ==> cart[i].quantity.Some?
  }

  /** The stored line for a cart line: its id and quantity, and the unit
      price the catalogue holds now. */
  function LineFor(line: CartLine, catalog: map<Id, MenuModel.MenuItem>): (r: OrderLine)
    requires line.menuItemId.Some? && line.menuItemId.value in catalog && line.quantity.Some?
    ensures r.menuItemId == line.menuItemId.value && r.quantity == line.quantity.value
    ensures r.price == catalog[line.menuItemId.value].price
  {
    OrderLine(line.menuItemId.value, line.quantity.value, catalog[line.menuItemId.value].price)
  }

  /** The stored lines of an order: the cart's lines in the cart's order,
      priced from the catalogue and never from the caller. */
  function Snapshot(cart: seq<CartLine>, catalog: map<Id, MenuModel.MenuItem>): (r: seq<OrderLine>)
    requires Resolved(cart, catalog.Keys) && QuantitiesPresent(cart)
    ensures |r| == |cart|
    ensures forall i :: 0 <= i < |cart| ==>
      && r[i].menuItemId == cart[i].menuItemId.value
      && r[i].quantity == cart[i].quantity.value
      && r[i].price == catalog[cart[i].menuItemId.value].price
  {
    if cart == [] then []
    else
      var init := cart[..|cart| - 1];
      assert forall i :: 0 <= i < |init| ==> init[i] == cart[i];
      Snapshot(init, catalog) + [LineFor(cart[|cart| - 1], catalog)]
  }

  /** The reference total: the sum over the cart of the catalogue price of
      each line's item times its quantity. */
  function CartTotal(cart: seq<CartLine>, catalog: map<Id, MenuModel.MenuItem>): int
    requires Resolved(cart, catalog.Keys) && QuantitiesPresent(cart)
  {
    if cart == [] then 0
    else
      var init := cart[..|cart| - 1];
      var last := cart[|cart| - 1];
      assert forall i :: 0 <= i < |init| ==> init[i] == cart[i];
      CartTotal(init, catalog) + catalog[last.menuItemId.value].price * last.quantity.value
  }

  /** The total of the snapshot lines is the reference total. */
  lemma {:induction false} SnapshotTotal(cart: seq<CartLine>, catalog: map<Id, MenuModel.MenuItem>)
    requires Resolved(cart, catalog.Keys) && QuantitiesPresent(cart)
    ensures SumLines(Snapshot(cart, catalog)) == CartTotal(cart, catalog)
  {
    if cart != [] {
      var init := cart[..|cart| - 1];
      assert forall i :: 0 <= i < |init| ==> init[i] == cart[i];
      SnapshotTotal(init, catalog);
      var lines := Snapshot(cart, catalog);
      assert lines[..|lines| - 1] == Snapshot(init, catalog);
    }
  }

  /** The pricing loop of `createOrder`: one pass over the cart that builds
      the stored lines and accumulates `totalPrice`. */
  method PriceCart(cart: seq<CartLine>, catalog: map<Id, MenuModel.MenuItem>) returns (lines: seq<OrderLine>, total: int)
    requires Resolved(cart, catalog.Keys) && QuantitiesPresent(cart)
    ensures lines == Snapshot(cart, catalog)
    ensures total == CartTotal(cart, catalog)
  {
    lines, total := [], 0;
    var i := 0;
    while i < |cart|
      invariant 0 <= i <= |cart|
      invariant lines == Snapshot(cart[..i], catalog)
      invariant total == CartTotal(cart[..i], catalog)
    {
      var line := cart[i];
      var item := catalog[line.menuItemId.value];
      total := total + item.price * line.quantity.value;
      lines := lines + [OrderLine(line.menuItemId.value, line.quantity.value, item.price)];
      assert cart[..i + 1][..i] == cart[..i];
      i := i + 1;
    }
    assert cart[..i] == cart;
  }

  /** Every line gives a quantity of at least one, as the schema demands. */
  predicate QuantitiesValid(cart: seq<CartLine>) {
    forall i :: 0 <= i < |cart| ==> cart[i].quantity.Some? && cart[i].quantity.value >= MinQuantity
  }

  /** Every check of `createOrder` passes. */
  predicate Accepted(db: Db, req: OrderRequest) {
    && req.items.Some? && req.items.value != []
    && !(req.orderType == Some("delivery") && Blank(req.address))
    && Resolved(req.items.value, db.menu.docs.Keys) && UniqueIds(req.items.value)
    && QuantitiesValid(req.items.value)
    && req.orderType.Some? && req.orderType.value in ["delivery", "pickup"]
  }

  /** Every stored order carries the total of its lines and satisfies the
      schema. */
  predicate OrdersWellFormed(t: Table<Order>) {
    forall id :: id in t.docs ==> TotalConsistent(t.docs[id]) && SchemaValid(t.docs[id])
  }

  /** The part of `createOrder` after every check has passed: the stored
      lines are the cart's lines in the cart's order, priced from the
      catalogue; the total is the reference total and the sum of the stored
      lines; both statuses take their defaults; one document is inserted and
      nothing else changes. */
  function PlaceOrder(db: Db, req: OrderRequest): (r: (Db, Entry<Order>))
    requires Accepted(db, req)
    ensures
      var (db', e) := r;
      var cart := req.items.value;
      && |e.doc.items| == |cart|
      && (forall i :: 0 <= i < |cart| ==>
            && e.doc.items[i].menuItemId == cart[i].menuItemId.value
            && e.doc.items[i].quantity == cart[i].quantity.value
            && e.doc.items[i].price == db.menu.docs[cart[i].menuItemId.value].price)
      && e.doc.totalPrice == CartTotal(cart, db.menu.docs)
      && TotalConsistent(e.doc) && SchemaValid(e.doc)
      && OrderTypeName(e.doc.orderType) == req.orderType.value
      && e.doc.address == req.address
      && e.doc.status == Pending && e.doc.paymentStatus == PaymentPending
    ensures
      var (db', e) := r;
      && e.id !in db.orders.docs
      && db'.orders.docs == db.orders.docs[e.id := e.doc]
      && db'.orders.order == db.orders.order + [e.id]
      && db' == db.(orders := db'.orders)
    ensures OrdersWellFormed(db.orders) ==> OrdersWellFormed(r.0.orders)
  {
    var cart := req.items.value;
    var lines := Snapshot(cart, db.menu.docs);
    var total := CartTotal(cart, db.menu.docs);
    SnapshotTotal(cart, db.menu.docs);
    var created := Create(lines, total, req.orderType, req.address);
    assert created.Ok?;
    var (t, id) := Insert(db.orders, created.value);
    (db.(orders := t), Entry(id, created.value))
  }

  /** One of the controller's own checks fails: an empty cart, a delivery
      without an address, or a cart whose lookup comes back short. */
  predicate ControllerRefuses(db: Db, req: OrderRequest) {
    || req.items.None? || req.items.value == []
    || (req.orderType == Some("delivery") && Blank(req.address))
    || !(Resolved(req.items.value, db.menu.docs.Keys) && UniqueIds(req.items.value))
  }

  /** `createOrder`: the checks in the controller's order (a non-empty cart, an
      address for delivery, every item found once), then the schema's
      (quantities present and at least one, a known order type), then one
      insert. Pricing has no effect of its own, so the model runs the
      schema's check before it rather than after. No failure stores
      anything. */
  function CreateOrder(db: Db, req: OrderRequest): (r: Reply<Entry<Order>>)
    ensures r.outcome.Fail? ==> r.db == db
    ensures req.items.None? || req.items.value == [] ==> r.outcome == Fail(Validation)
    ensures req.items.Some? && req.items.value != [] && req.orderType == Some("delivery") && Blank(req.address) ==>
      r.outcome == Fail(Validation)
    ensures r.outcome == Fail(Validation) <==> ControllerRefuses(db, req)
    ensures r.outcome.Fail? && r.outcome.error != Validation ==> r.outcome.error == SchemaReject
    ensures r.outcome.Ok? <==> Accepted(db, req)
    ensures r.outcome.Ok? ==> PlaceOrder(db, req) == (r.db, r.outcome.value)
    ensures OrdersWellFormed(db.orders) ==> OrdersWellFormed(r.db.orders)
  {
    if req.items.None? || req.items.value == [] then
      Reply(Fail(Validation), db)
    else if req.orderType == Some("delivery") && Blank(req.address) then
      Reply(Fail(Validation), db)
    else
      var cart := req.items.value;
      HitsCount(cart, db.menu.docs.Keys);
      if |Hits(cart, db.menu.docs.Keys)| != |cart| then
        Reply(Fail(Validation), db)
      else if !QuantitiesPresent(cart) || !Accepted(db, req) then
        Reply(Fail(SchemaReject), db)
      else
        var (db', e) := PlaceOrder(db, req);
        Reply(Ok(e), db')
  }

  /** Two carts that agree on every line's id and quantity. */
  predicate SameLines(c: seq<CartLine>, c': seq<CartLine>) {
    |c| == |c'| &&
    forall i :: 0 <= i < |c| ==> c[i].menuItemId == c'[i].menuItemId && c[i].quantity == c'[i].quantity
  }

  /** Carts that agree on ids and quantities are checked alike. */
  lemma SameLinesCheckAlike(c: seq<CartLine>, c': seq<CartLine>, catalog: set<Id>)
    requires SameLines(c, c')
    ensures RequestedIds(c) == RequestedIds(c')
    ensures Hits(c, catalog) == Hits(c', catalog)
    ensures Resolved(c, catalog) <==> Resolved(c', catalog)
    ensures UniqueIds(c) <==> UniqueIds(c')
    ensures QuantitiesPresent(c) <==> QuantitiesPresent(c')
    ensures QuantitiesValid(c) <==> QuantitiesValid(c')
  {
    assert RequestedIds(c) == RequestedIds(c');
  }

  /** Carts that agree on ids and quantities are checked and priced alike. */
  lemma SameLinesPriceAlike(c: seq<CartLine>, c': seq<CartLine>, catalog: map<Id, MenuModel.MenuItem>)
    requires SameLines(c, c')
    ensures Resolved(c, catalog.Keys) <==> Resolved(c', catalog.Keys)
    ensures QuantitiesPresent(c) <==> QuantitiesPresent(c')
    ensures Resolved(c, catalog.Keys) && QuantitiesPresent(c) ==>
      Snapshot(c, catalog) == Snapshot(c', catalog) && CartTotal(c, catalog) == CartTotal(c', catalog)
  {
    SameLinesCheckAlike(c, c', catalog.Keys);
    if Resolved(c, catalog.Keys) && QuantitiesPresent(c) {
      SnapshotsAlike(c, c', catalog);
    }
  }

  /** Resolved carts that agree on ids and quantities have the same
      snapshot and the same total. */
  lemma SnapshotsAlike(c: seq<CartLine>, c': seq<CartLine>, catalog: map<Id, MenuModel.MenuItem>)
    requires SameLines(c, c')
    requires Resolved(c, catalog.Keys) && QuantitiesPresent(c)
    requires Resolved(c', catalog.Keys) && QuantitiesPresent(c')
    ensures Snapshot(c, catalog) == Snapshot(c', catalog)
    ensures CartTotal(c, catalog) == CartTotal(c', catalog)
  {
    var s, s' := Snapshot(c, catalog), Snapshot(c', catalog);
    assert |s| == |s'|;
    forall i | 0 <= i < |s| ensures s[i] == s'[i] {
      assert s[i].menuItemId == s'[i].menuItemId;
    }
    assert s == s';
    SnapshotTotal(c, catalog);
    SnapshotTotal(c', catalog);
  }

  /** Accepted requests that agree on ids and quantities place the same
      order. */
  lemma PlaceOrderIgnoresPrices(db: Db, req: OrderRequest, req': OrderRequest)
    requires Accepted(db, req) && Accepted(db, req')
    requires SameLines(req.items.value, req'.items.value)
    requires req.orderType == req'.orderType && req.address == req'.address
    ensures PlaceOrder(db, req) == PlaceOrder(db, req')
  {
    var c, c' := req.items.value, req'.items.value;
    SameLinesPriceAlike(c, c', db.menu.docs);
    var lines := Snapshot(c, db.menu.docs);
    var total := CartTotal(c, db.menu.docs);
    assert Create(lines, total, req.orderType, req.address) ==
      Create(Snapshot(c', db.menu.docs), CartTotal(c', db.menu.docs), req'.orderType, req'.address);
  }

  /** Requests that agree on ids, quantities, order type and address fail
      the controller's own checks alike. */
  lemma SameRefusal(db: Db, req: OrderRequest, req': OrderRequest)
    requires req.items.Some? <==> req'.items.Some?
    requires req.items.Some? ==> SameLines(req.items.value, req'.items.value)
    requires req.orderType == req'.orderType && req.address == req'.address
    ensures ControllerRefuses(db, req) <==> ControllerRefuses(db, req')
  {
    if req.items.Some? {
      SameLinesCheckAlike(req.items.value, req'.items.value, db.menu.docs.Keys);
    }
  }

  /** Requests that agree on ids, quantities, order type and address are
      accepted alike. */
  lemma SameAcceptance(db: Db, req: OrderRequest, req': OrderRequest)
    requires req.items.Some? <==> req'.items.Some?
    requires req.items.Some? ==> SameLines(req.items.value, req'.items.value)
    requires req.orderType == req'.orderType && req.address == req'.address
    ensures Accepted(db, req) <==> Accepted(db, req')
  {
    if req.items.Some? {
      SameLinesCheckAlike(req.items.value, req'.items.value, db.menu.docs.Keys);
    }
  }

  /** Refused requests that pass or fail the same checks get the same
      reply. */
  lemma RefusedAlike(db: Db, req: OrderRequest, req': OrderRequest)
    requires !Accepted(db, req) && !Accepted(db, req')
    requires ControllerRefuses(db, req) <==> ControllerRefuses(db, req')
    ensures CreateOrder(db, req) == CreateOrder(db, req')
  {
    var r, r' := CreateOrder(db, req), CreateOrder(db, req');
    assert r.outcome.Fail? && r'.outcome.Fail?;
  }

  /** Prices the caller puts in the cart change nothing: two requests that
      agree on ids, quantities, order type and address give the same reply. */
  lemma CallerPricesIgnored(db: Db, req: OrderRequest, req': OrderRequest)
    requires req.items.Some? <==> req'.items.Some?
    requires req.items.Some? ==> SameLines(req.items.value, req'.items.value)
    requires req.orderType == req'.orderType && req.address == req'.address
    ensures CreateOrder(db, req) == CreateOrder(db, req')
  {
    SameRefusal(db, req, req');
    SameAcceptance(db, req, req');
    if Accepted(db, req) {
      PlaceOrderIgnoresPrices(db, req, req');
    } else {
      RefusedAlike(db, req, req');
    }
  }

  /** The validator has no address rule: a delivery order without an address
      passes it, and only the controller refuses it. */
  lemma DeliveryWithoutAddressPassesValidator(db: Db, id: Id)
    ensures var req := OrderRequest(Some([CartLine(Some(id), Some(1), None)]), Some("delivery"), None);
      OrderValidator.CreateValid(req) && CreateOrder(db, req).outcome == Fail(Validation)
  {
  }

  /** The validator chain and the controller agree on what the schema
      checks: an accepted request passes the chain, and a request that passes
      the chain is never refused by the schema. */
  lemma ValidatorCoversSchema(db: Db, req: OrderRequest)
    ensures Accepted(db, req) ==> OrderValidator.CreateValid(req)
    ensures OrderValidator.CreateValid(req) ==> CreateOrder(db, req).outcome != Fail(SchemaReject)
  {
    if OrderValidator.CreateValid(req) {
      HitsCount(req.items.value, db.menu.docs.Keys);
      assert forall i :: 0 <= i < |req.items.value| ==> OrderValidator.LineValid(req.items.value[i]);
    }
  }

  /** `updateOrderStatus`: any of the four admin statuses may be set from any
      status; nothing else about the order changes. */
  function UpdateOrderStatus(db: Db, id: Id, status: Option<string>): (r: Reply<Entry<Order>>)
    ensures id !in db.orders.docs ==> r == Reply(Fail(NotFound), db)
    ensures id in db.orders.docs && !(status.Some? && status.value in AdminStatuses) ==>
      r == Reply(Fail(Validation), db)
    ensures r.outcome.Ok? <==> id in db.orders.docs && status.Some? && status.value in AdminStatuses
    ensures r.outcome.Ok? ==>
      var e := r.outcome.value;
      && e.id == id
      && StatusName(e.doc.status) == status.value
      && e.doc == db.orders.docs[id].(status := e.doc.status)
      && r.db == db.(orders := Replace(db.orders, id, e.doc))
    ensures OrdersWellFormed(db.orders) ==> OrdersWellFormed(r.db.orders)
  {
    if id !in db.orders.docs then
      Reply(Fail(NotFound), db)
    else if status.None? || status.value !in AdminStatuses then
      Reply(Fail(Validation), db)
    else
      var order := db.orders.docs[id].(status := ParseStatus(status.value).value);
      Reply(Ok(Entry(id, order)), db.(orders := Replace(db.orders, id, order)))
  }

  /** `cancelOrder`: refused once the order is ready or delivered; otherwise
      the status becomes cancelled and nothing else changes. */
  function CancelOrder(db: Db, id: Id): (r: Reply<Entry<Order>>)
    ensures id !in db.orders.docs ==> r == Reply(Fail(NotFound), db)
    ensures id in db.orders.docs && db.orders.docs[id].status in {Ready, Delivered} ==>
      r == Reply(Fail(Validation), db)
    ensures id in db.orders.docs && db.orders.docs[id].status !in {Ready, Delivered} ==>
      var cancelled := db.orders.docs[id].(status := Cancelled);
      && r.outcome == Ok(Entry(id, cancelled))
      && r.db == db.(orders := Replace(db.orders, id, cancelled))
    ensures OrdersWellFormed(db.orders) ==> OrdersWellFormed(r.db.orders)
  {
    if id !in db.orders.docs then
      Reply(Fail(NotFound), db)
    else
      var order := db.orders.docs[id];
      if order.status == Ready || order.status == Delivered then
        Reply(Fail(Validation), db)
      else
        var cancelled := order.(status := Cancelled);
        Reply(Ok(Entry(id, cancelled)), db.(orders := Replace(db.orders, id, cancelled)))
  }

  /** Cancelling again repeats the first reply and leaves the database as the
      first call left it. */
  lemma CancelOrderIdempotent(db: Db, id: Id)
    ensures CancelOrder(CancelOrder(db, id).db, id) == CancelOrder(db, id)
  {
    if id in db.orders.docs && db.orders.docs[id].status !in {Ready, Delivered} {
      var cancelled := db.orders.docs[id].(status := Cancelled);
      var db' := db.(orders := Replace(db.orders, id, cancelled));
      assert CancelOrder(db, id).db == db';
      assert db'.orders.docs[id] == cancelled;
      ReplaceSame(db'.orders, id);
      assert cancelled.(status := Cancelled) == cancelled;
    }
  }
}

=== FILE: order_model.dfy ===
/** The Order document (models/Order.mjs): its enumerations, defaults and
    line-item minimum, and the total the order controller stores in it. */
module OrderModel {
  import opened Common

  datatype OrderType = Delivery | Pickup

  datatype OrderStatus = Pending | Preparing | Ready | Delivered | Cancelled

  datatype PaymentStatus = PaymentPending | Paid | PaymentFailed

  /** One stored line: the item, how many, and the unit price recorded at
      order time. */
  datatype OrderLine = OrderLine(menuItemId: Id, quantity: int, price: int)

  /** A stored order. The schema leaves `totalPrice` and `address`
      unconstrained; `status` and `paymentStatus` have defaults. */
  datatype Order = Order(
    items: seq<OrderLine>,
    totalPrice: int,
    orderType: OrderType,
    address: Option<string>,
    status: OrderStatus,
    paymentStatus: PaymentStatus)

  /** One line of a cart as the caller sends it. An absent id or quantity is
      `None`; `price` is whatever the caller claims and is never used. */
  datatype CartLine = CartLine(menuItemId: Option<Id>, quantity: Option<int>, price: Option<int>)

  /** The body of an order request. */
  datatype OrderRequest = OrderRequest(items: Option<seq<CartLine>>, orderType: Option<string>, address: Option<string>)

  /** The smallest quantity the schema admits on a line. */
  const MinQuantity := 1

  function OrderTypeName(t: OrderType): string {
    match t
    case Delivery => "delivery"
    case Pickup => "pickup"
  }

  function StatusName(s: OrderStatus): string {
    match s
    case Pending => "pending"
    case Preparing => "preparing"
    case Ready => "ready"
    case Delivered => "delivered"
    case Cancelled => "cancelled"
  }

  function PaymentStatusName(s: PaymentStatus): string {
    match s
    case PaymentPending => "pending"
    case Paid => "paid"
    case PaymentFailed => "failed"
  }

  /** The `enum` validator of `orderType`. */
  function ParseOrderType(s: string): (r: Option<OrderType>)
    ensures r.Some? <==> s in ["delivery", "pickup"]
    ensures r.Some? ==> OrderTypeName(r.value) == s
  {
    if s == "delivery" then Some(Delivery)
    else if s == "pickup" then Some(Pickup)
    else None
  }

  /** The `enum` validator of `status`. */
  function ParseStatus(s: string): (r: Option<OrderStatus>)
    ensures r.Some? <==> s in ["pending", "preparing", "ready", "delivered", "cancelled"]
    ensures r.Some? ==> StatusName(r.value) == s
  {
    if s == "pending" then Some(Pending)
    else if s == "preparing" then Some(Preparing)
    else if s == "ready" then Some(Ready)
    else if s == "delivered" then Some(Delivered)
    else if s == "cancelled" then Some(Cancelled)
    else None
  }

  /** The `enum` validator of `paymentStatus`. */
  function ParsePaymentStatus(s: string): (r: Option<PaymentStatus>)
    ensures r.Some? <==> s in ["pending", "paid", "failed"]
    ensures r.Some? ==> PaymentStatusName(r.value) == s
  {
    if s == "pending" then Some(PaymentPending)
    else if s == "paid" then Some(Paid)
    else if s == "failed" then Some(PaymentFailed)
    else None
  }

  /** Each enumeration's names are accepted by its parser and give back the
      value they name. */
  lemma EnumRoundTrips(t: OrderType, s: OrderStatus, p: PaymentStatus)
    ensures ParseOrderType(OrderTypeName(t)) == Some(t)
    ensures ParseStatus(StatusName(s)) == Some(s)
    ensures ParsePaymentStatus(PaymentStatusName(p)) == Some(p)
  {
  }

  /** The sum over `lines` of unit price times quantity. */
  function SumLines(lines: seq<OrderLine>): int {
    if lines == [] then 0
    else SumLines(lines[..|lines| - 1]) + lines[|lines| - 1].price * lines[|lines| - 1].quantity
  }

  /** The order's stored total is the sum of its lines. The schema does not
      enforce this; the order controller establishes it. */
  predicate TotalConsistent(o: Order) {
    o.totalPrice == SumLines(o.items)
  }

  /** What the schema guarantees of a stored order: every line has a
      quantity of at least one. */
  predicate SchemaValid(o: Order) {
    forall i :: 0 <= i < |o.items| ==> o.items[i].quantity >= MinQuantity
  }

  /** `Order.create({items, totalPrice, orderType, address})`: the `enum`
      validator on `orderType` (absent fails `required`), the `min` validator
      on every line's quantity, and the two status defaults. One bad line
      rejects the whole order. */
  function Create(items: seq<OrderLine>, totalPrice: int, orderType: Option<string>, address: Option<string>): (r: Outcome<Order>)
    ensures r.Ok? <==>
      && orderType.Some? && orderType.value in ["delivery", "pickup"]
      && forall i :: 0 <= i < |items| ==> items[i].quantity >= MinQuantity
    ensures r.Fail? ==> r.error == SchemaReject
    ensures r.Ok? ==>
      && SchemaValid(r.value)
      && r.value.items == items
      && r.value.totalPrice == totalPrice
      && OrderTypeName(r.value.orderType) == orderType.value
      && r.value.address == address
      && r.value.status == Pending
      && r.value.paymentStatus == PaymentPending
  {
    if orderType.None? then Fail(SchemaReject)
    else
      match ParseOrderType(orderType.value)
      case None => Fail(SchemaReject)
      case Some(t) =>
        if exists i :: 0 <= i < |items| && items[i].quantity < MinQuantity then Fail(SchemaReject)
        else Ok(Order(items, totalPrice, t, address, Pending, PaymentPending))
  }
}

=== FILE: order_validator.dfy ===
/** The request checks of validators/orderValidator.mjs, as a predicate on
    an order request. It has no rule about the delivery address. */
module OrderValidator {
  import opened Common
  import opened OrderModel

  /** `isArray({min: 1})` on `items`. */
  predicate HasItems(req: OrderRequest) {
    req.items.Some? && |req.items.value| >= 1
  }

  /** `notEmpty()` on `items.*.menuItemId` and `isInt({min: 1})` on
      `items.*.quantity`. */
  predicate LineValid(line: CartLine) {
    line.menuItemId.Some? && line.quantity.Some? && line.quantity.value >= 1
  }

  /** `createOrderValidation`. */
  predicate CreateValid(req: OrderRequest) {
    && HasItems(req)
    && (forall i :: 0 <= i < |req.items.value| ==> LineValid(req.items.value[i]))
    && req.orderType.Some? && req.orderType.value in ["delivery", "pickup"]
  }
}

=== FILE: pagination.dfy ===
/** The page/limit arithmetic shared by the category and reservation
    listings (controllers/categoryController.mjs `getAllCate`,
    controllers/ReservationController.mjs `getReservations`). */
module Pagination {
  import opened Common
  import opened Store

  const DefaultPage := 1

  const DefaultLimit := 10

  /** `Math.max(parseInt(q) || fallback, 1)`. `None` stands for a query
      parameter that is absent or that `parseInt` turns into NaN; 0 is falsy,
      so it falls back as well. */
  function Coerce(q: Option<int>, fallback: int): (r: int)
    ensures r >= 1
    ensures q.Some? && q.value >= 1 ==> r == q.value
    ensures q.Some? && q.value < 0 ==> r == 1
    ensures (q.None? || q.value == 0) && fallback >= 1 ==> r == fallback
  {
    var v := if q.None? || q.value == 0 then fallback else q.value;
    if v < 1 then 1 else v
  }

  /** `Math.ceil(total / limit)`: the fewest pages of `limit` entries that hold
      `total` entries. */
  function CeilDiv(total: nat, limit: int): (r: nat)
    requires limit >= 1
    ensures r * limit >= total
    ensures r == 0 || (r - 1) * limit < total
  {
    var q := (total + limit - 1) / limit;
    assert q * limit <= total + limit - 1 < q * limit + limit;
    q
  }

  /** The number of entries the pages before page `page` hold: a whole
      number of pages, one fewer than `page`. */
  function Skip(page: int, limit: int): (s: nat)
    requires page >= 1 && limit >= 1
    ensures s % limit == 0 && s / limit == page - 1
    ensures page == 1 <==> s == 0
  {
    MultipleDivides(page - 1, limit);
    (page - 1) * limit
  }

  /** Dividing a multiple of `d` by `d` leaves no remainder and gives back
      the factor. */
  lemma MultipleDivides(q: nat, d: int)
    requires d >= 1
    ensures (q * d) % d == 0 && (q * d) / d == q
  {
    var a := q * d;
    var k, r := a / d, a % d;
    assert a == d * k + r && 0 <= r < d;
    MulGrows(d, k - q);
    assert d * k - d * q == d * (k - q);
  }

  /** A non-zero multiple of `d` is at least `d` away from zero. */
  lemma MulGrows(d: int, m: int)
    requires d >= 1
    ensures m >= 1 ==> d * m >= d
    ensures m <= -1 ==> d * m <= -d
  {
  }

  /** `.skip(s).limit(limit)` on an already sorted listing. */
  function Slice<T>(xs: seq<T>, s: nat, limit: int): (r: seq<T>)
    requires limit >= 1
    ensures |r| <= limit
    ensures s >= |xs| ==> r == []
    ensures s < |xs| ==> |r| == (if |xs| - s < limit then |xs| - s else limit)
    ensures forall j :: 0 <= j < |r| ==> s + j < |xs| && r[j] == xs[s + j]
  {
    if s >= |xs| then []
    else if |xs| - s < limit then xs[s..]
    else xs[s..s + limit]
  }

  /** The envelope of a paginated listing. */
  datatype Page<R> = Page(total: nat, count: nat, page: int, limit: int, totalPages: nat, data: seq<Entry<R>>)

  /** A paginated listing of a collection, newest first: the coerced page
      and limit, the entries `[skip, skip + limit)` of the sorted collection,
      their count, the collection's size and the number of pages. */
  function List<R>(t: Table<R>, pageQuery: Option<int>, limitQuery: Option<int>): (p: Page<R>)
    ensures p.page == Coerce(pageQuery, DefaultPage) && p.limit == Coerce(limitQuery, DefaultLimit)
    ensures p.page >= 1 && p.limit >= 1
    ensures p.total == |t.docs| && p.count == |p.data| && p.count <= p.limit
    ensures p.totalPages * p.limit >= p.total
    ensures p.totalPages == 0 || (p.totalPages - 1) * p.limit < p.total
    ensures p.data == Slice(NewestFirst(t), Skip(p.page, p.limit), p.limit)
  {
    var page := Coerce(pageQuery, DefaultPage);
    var limit := Coerce(limitQuery, DefaultLimit);
    var total := Count(t);
    var listing := NewestFirst(t);
    var data := Slice(listing, Skip(page, limit), limit);
    assert |listing| == total == |t.docs|;
    Page(total, |data|, page, limit, CeilDiv(total, limit), data)
  }

  /** Multiplying by a non-negative number keeps the order. */
  lemma MulMonotone(a: int, b: int, c: int)
    requires a <= b && c >= 0
    ensures a * c <= b * c
  {
  }

  /** The arithmetic behind `PageSizes`, on plain numbers. */
  lemma PageArithmetic(total: nat, page: int, limit: int, pages: nat)
    requires page >= 1 && limit >= 1
    requires pages * limit >= total
    requires pages == 0 || (pages - 1) * limit < total
    ensures page < pages ==> (page - 1) * limit + limit < total
    ensures page == pages ==> (page - 1) * limit < total <= (page - 1) * limit + limit
    ensures page > pages ==> (page - 1) * limit >= total
  {
    if page < pages {
      MulMonotone(page, pages - 1, limit);
    } else if page > pages {
      MulMonotone(pages, page - 1, limit);
    }
  }

  /** Every page before the last is full, the last holds the remainder, and
      a page past the last is empty. */
  lemma PageSizes<R>(t: Table<R>, pageQuery: Option<int>, limitQuery: Option<int>)
    ensures var p := List(t, pageQuery, limitQuery);
      && (p.page < p.totalPages ==> p.count == p.limit)
      && (p.page == p.totalPages ==> p.count == p.total - (p.totalPages - 1) * p.limit)
      && (p.page > p.totalPages ==> p.count == 0)
  {
    var p := List(t, pageQuery, limitQuery);
    assert |NewestFirst(t)| == p.total;
    PageArithmetic(p.total, p.page, p.limit, p.totalPages);
  }

  /** A block that starts before `total` is not past the last page. */
  lemma BlockArithmetic(q: nat, total: nat, limit: int, pages: nat)
    requires limit >= 1 && q * limit < total
    requires pages * limit >= total
    ensures q + 1 <= pages
  {
    if pages < q + 1 {
      MulMonotone(pages, q, limit);
      assert false;
    }
  }

  /** The entry at position `q * limit + r` of the newest-first listing,
      with `r < limit`, is found on page `q + 1` at offset `r`, and that page
      exists: every entry is on exactly the page its position names. */
  lemma EntryPage<R>(t: Table<R>, q: nat, r: nat, limit: int)
    requires r < limit && q * limit + r < |t.docs|
    ensures var p := List(t, Some(q + 1), Some(limit));
      && p.page <= p.totalPages
      && r < |p.data|
      && p.data[r] == NewestFirst(t)[q * limit + r]
  {
    var p := List(t, Some(q + 1), Some(limit));
    assert p.page == q + 1 && p.limit == limit;
    BlockArithmetic(q, p.total, limit, p.totalPages);
    var skip := Skip(p.page, limit);
    assert skip == q * limit;
    var listing := NewestFirst(t);
    assert |listing| == p.total;
    assert p.data == Slice(listing, skip, limit);
  }

  /** Twelve entries listed five to a page: the second page is full and
      there are three pages. */
  lemma TwelveByFive<R>(t: Table<R>)
    requires |t.docs| == 12
    ensures List(t, Some(2), Some(5)).count == 5
    ensures List(t, Some(2), Some(5)).totalPages == 3
  {
    PageSizes(t, Some(2), Some(5));
  }
}

=== FILE: reservation_controller.dfy ===
/** controllers/ReservationController.mjs: creation gated only by the
    schema, the admin listing, the admin patch and the cancel. */
module ReservationController {
  import opened Common
  import opened Store
  import opened ReservationModel
  import Pagination

  /** `createReservation`: the body is stored exactly when the schema
      accepts it; otherwise the call fails and nothing is stored. */
  function CreateReservation(db: Db, b: ReservationBody): (r: Reply<Entry<Reservation>>)
    ensures r.outcome.Ok? <==> Create(b).Some?
    ensures r.outcome.Fail? ==> r == Reply(Fail(SchemaReject), db)
    ensures r.outcome.Ok? ==>
      var e := r.outcome.value;
      && e.doc == Create(b).value
      && SchemaValid(e.doc)
      && e.id !in db.reservations.docs
      && r.db.reservations.docs == db.reservations.docs[e.id := e.doc]
      && r.db.reservations.order == db.reservations.order + [e.id]
      && r.db == db.(reservations := r.db.reservations)
  {
    match Create(b)
    case None => Reply(Fail(SchemaReject), db)
    case Some(doc) =>
      var (t, id) := Insert(db.reservations, doc);
      Reply(Ok(Entry(id, doc)), db.(reservations := t))
  }

  /** `getReservations`: one page of the reservations, newest first, with
      the same coercion and arithmetic as the category listing. */
  function GetReservations(db: Db, pageQuery: Option<int>, limitQuery: Option<int>): (p: Pagination.Page<Reservation>)
    ensures p.page == Pagination.Coerce(pageQuery, Pagination.DefaultPage)
    ensures p.limit == Pagination.Coerce(limitQuery, Pagination.DefaultLimit)
    ensures p.total == |db.reservations.docs| && p.count == |p.data| <= p.limit
    ensures p.totalPages == Pagination.CeilDiv(p.total, p.limit)
    ensures p.data == Pagination.Slice(NewestFirst(db.reservations), Pagination.Skip(p.page, p.limit), p.limit)
  {
    Pagination.List(db.reservations, pageQuery, limitQuery)
  }

  /** `updateReservation`: `findByIdAndUpdate(id, body)` without `{new:
      true}`, so the answer is the document as it was before; the patched
      document is what is stored. An unknown id stores nothing. */
  function UpdateReservation(db: Db, id: Id, b: ReservationBody): (r: Reply<Entry<Reservation>>)
    ensures id !in db.reservations.docs ==> r == Reply(Fail(NotFound), db)
    ensures id in db.reservations.docs ==>
      && r.outcome == Ok(Entry(id, db.reservations.docs[id]))
      && r.db == db.(reservations := Replace(db.reservations, id, Patch(db.reservations.docs[id], b)))
  {
    if id !in db.reservations.docs then Reply(Fail(NotFound), db)
    else
      var before := db.reservations.docs[id];
      Reply(Ok(Entry(id, before)), db.(reservations := Replace(db.reservations, id, Patch(before, b))))
  }

  /** The patch that `cancelReservation` sends. */
  const CancelPatch := ReservationBody(None, None, None, None, None, Some(CancelledStatus), None, None)

  /** `cancelReservation`: whatever the current status, it becomes
      "cancelled" and nothing else changes; the answer is the document as
      it was before. */
  function CancelReservation(db: Db, id: Id): (r: Reply<Entry<Reservation>>)
    ensures id !in db.reservations.docs ==> r == Reply(Fail(NotFound), db)
    ensures id in db.reservations.docs ==>
      && r.outcome == Ok(Entry(id, db.reservations.docs[id]))
      && r.db == db.(reservations := Replace(db.reservations, id,
           db.reservations.docs[id].(status := CancelledStatus)))
  {
    UpdateReservation(db, id, CancelPatch)
  }

  /** Patching twice with the same body stores the same document as
      patching once. */
  lemma PatchIdempotent(r: Reservation, b: ReservationBody)
    ensures Patch(Patch(r, b), b) == Patch(r, b)
  {
    var p := Patch(r, b);
    var q := Patch(p, b);
    assert q.customerName == p.customerName && q.phone == p.phone && q.date == p.date;
    assert q.time == p.time && q.guests == p.guests && q.status == p.status;
  }

  /** Cancelling twice leaves the same store as cancelling once, and the
      second answer already shows the cancelled document. */
  lemma CancelReservationIdempotent(db: Db, id: Id)
    requires id in db.reservations.docs
    ensures var once := CancelReservation(db, id);
      var twice := CancelReservation(once.db, id);
      && twice.db == once.db
      && twice.outcome == Ok(Entry(id, db.reservations.docs[id].(status := CancelledStatus)))
  {
    var once := CancelReservation(db, id);
    assert once.db.reservations.docs[id] == db.reservations.docs[id].(status := CancelledStatus);
    assert once.db.reservations.docs[id := once.db.reservations.docs[id]] == once.db.reservations.docs;
  }

  /** Cancelling keeps a schema-valid reservation schema-valid. */
  lemma CancelKeepsSchema(db: Db, id: Id)
    requires id in db.reservations.docs && SchemaValid(db.reservations.docs[id])
    ensures SchemaValid(CancelReservation(db, id).db.reservations.docs[id])
  {
  }

  /** The admin patch runs no validator: it can store a price below the
      floor that creation enforces. */
  lemma PatchCanBreakSchema(db: Db, id: Id)
    requires id in db.reservations.docs
    ensures var b := ReservationBody(None, None, None, None, None, None, None, Some(50));
      var r := UpdateReservation(db, id, b);
      && r.outcome.Ok?
      && r.db.reservations.docs[id].price == 50
      && !SchemaValid(r.db.reservations.docs[id])
  {
  }

  /** A complete request for four guests at the floor price. */
  const Booking := ReservationBody(Some("Mona"), Some("0100"), Some(20260101), Some("19:00"), Some(4), None, None, Some(MinPrice))

  /** The booking is stored with the default status; the same booking for
      no guests, or at a price of 50, or without a price, is refused. */
  lemma CreateExamples(db: Db)
    ensures CreateReservation(db, Booking).outcome.Ok?
    ensures CreateReservation(db, Booking).outcome.value.doc.status == DefaultStatus
    ensures CreateReservation(db, Booking.(guests := Some(0))) == Reply(Fail(SchemaReject), db)
    ensures CreateReservation(db, Booking.(price := Some(50))) == Reply(Fail(SchemaReject), db)
    ensures CreateReservation(db, Booking.(price := None)) == Reply(Fail(SchemaReject), db)
  {
  }
}

=== FILE: reservation_model.dfy ===
/** The Reservation document (models/Reservation.mjs). */
module ReservationModel {
  import opened Common

  /** A stored reservation. `date` stands for the cast Date as a number;
      `status` is kept as the string the database holds, because an admin
      patch writes it without running the `enum` validator. */
  datatype Reservation = Reservation(
    customerName: string,
    phone: string,
    date: int,
    time: string,
    guests: int,
    status: string,
    notes: Option<string>,
    price: int)

  /** A request body for creating or patching a reservation; absent fields
      are `None`. */
  datatype ReservationBody = ReservationBody(
    customerName: Option<string>,
    phone: Option<string>,
    date: Option<int>,
    time: Option<string>,
    guests: Option<int>,
    status: Option<string>,
    notes: Option<string>,
    price: Option<int>)

  const MinGuests := 1

  /** The price floor. The schema gives the price no default. */
  const MinPrice := 80

  const Statuses: seq<string> := ["pending", "confirmed", "cancelled"]

  const DefaultStatus := "pending"

  const CancelledStatus := "cancelled"

  /** A present string passes `required` when it is not empty. */
  predicate RequiredText(s: Option<string>) {
    s.Some? && s.value != []
  }

  /** Everything the schema's validators demand of a document. */
  predicate SchemaValid(r: Reservation) {
    && r.customerName != [] && r.phone != [] && r.time != []
    && r.guests >= MinGuests
    && r.status in Statuses
    && r.price >= MinPrice
  }

  /** `Reservation.create(body)`: the required fields, the two minimums and
      the status enumeration with its default. `notes` is optional. */
  function Create(b: ReservationBody): (r: Option<Reservation>)
    ensures r.Some? <==>
      && RequiredText(b.customerName) && RequiredText(b.phone) && RequiredText(b.time)
      && b.date.Some?
      && b.guests.Some? && b.guests.value >= MinGuests
      && b.price.Some? && b.price.value >= MinPrice
      && (b.status.None? || b.status.value in Statuses)
    ensures r.Some? ==> SchemaValid(r.value)
    ensures r.Some? ==>
      && r.value.customerName == b.customerName.value
      && r.value.phone == b.phone.value
      && r.value.date == b.date.value
      && r.value.time == b.time.value
      && r.value.guests == b.guests.value
      && r.value.notes == b.notes
      && r.value.price == b.price.value
      && r.value.status == (if b.status.None? then DefaultStatus else b.status.value)
  {
    if && RequiredText(b.customerName) && RequiredText(b.phone) && RequiredText(b.time)
       && b.date.Some?
       && b.guests.Some? && b.guests.value >= MinGuests
       && b.price.Some? && b.price.value >= MinPrice
       && (b.status.None? || b.status.value in Statuses)
    then
      Some(Reservation(
        b.customerName.value, b.phone.value, b.date.value, b.time.value, b.guests.value,
        if b.status.None? then DefaultStatus else b.status.value,
        b.notes, b.price.value))
    else
      None
  }

  /** A `$set` of the body's present fields, as `findByIdAndUpdate` applies
      it: no validator runs, so the result need not satisfy the schema. */
  function Patch(r: Reservation, b: ReservationBody): (p: Reservation)
    ensures p.customerName == (if b.customerName.Some? then b.customerName.value else r.customerName)
    ensures p.phone == (if b.phone.Some? then b.phone.value else r.phone)
    ensures p.date == (if b.date.Some? then b.date.value else r.date)
    ensures p.time == (if b.time.Some? then b.time.value else r.time)
    ensures p.guests == (if b.guests.Some? then b.guests.value else r.guests)
    ensures p.status == (if b.status.Some? then b.status.value else r.status)
    ensures p.notes == (if b.notes.Some? then b.notes else r.notes)
    ensures p.price == (if b.price.Some? then b.price.value else r.price)
  {
    Reservation(
      if b.customerName.Some? then b.customerName.value else r.customerName,
      if b.phone.Some? then b.phone.value else r.phone,
      if b.date.Some? then b.date.value else r.date,
      if b.time.Some? then b.time.value else r.time,
      if b.guests.Some? then b.guests.value else r.guests,
      if b.status.Some? then b.status.value else r.status,
      if b.notes.Some? then b.notes else r.notes,
      if b.price.Some? then b.price.value else r.price)
  }
}

=== FILE: store.dfy ===
/** The database as the controllers see it: one table per collection, each
    a finite map from id to document plus the order in which the documents
    were created. Every read-modify-write is one atomic step. */
module Store {
  import opened Common
  import opened Text
  import CategoryModel
  import MenuModel
  import OrderModel
  import ReservationModel
  import MessageModel

  /** A document together with its id, as a query returns it. */
  datatype Entry<R> = Entry(id: Id, doc: R)

  /** A collection: its documents, their ids oldest first, and the id the
      next created document receives. */
  datatype Collection<R> = Collection(docs: map<Id, R>, order: seq<Id>, next: Id)

  /** The ids of `s` grow from left to right. */
  predicate Increasing(s: seq<Id>) {
    forall i, j :: 0 <= i < j < |s| ==> s[i] < s[j]
  }

  /** The creation order lists every document exactly once, a later document
      has a larger id, and the next id is larger than all of them. */
  predicate Valid<R>(c: Collection<R>) {
    && Increasing(c.order)
    && (forall k :: k in c.order ==> k in c.docs)
    && (forall k :: k in c.docs ==> k in c.order)
    && (forall k :: k in c.docs ==> k < c.next)
  }

  type Table<R> = c: Collection<R> | Valid(c) witness Collection(map[], [], 0)

  /** The five collections of the restaurant. */
  datatype Db = Db(
    categories: Table<CategoryModel.Category>,
    menu: Table<MenuModel.MenuItem>,
    orders: Table<OrderModel.Order>,
    reservations: Table<ReservationModel.Reservation>,
    messages: Table<MessageModel.Message>)

  /** What a writing controller returns: its outcome and the database after
      the call. */
  datatype Reply<T> = Reply(outcome: Outcome<T>, db: Db)

  /** `Model.create`: the document is stored under a fresh id and becomes the
      newest one. */
  function Insert<R>(t: Table<R>, doc: R): (r: (Table<R>, Id))
    ensures forall k :: k in t.docs ==> k < r.1
    ensures r.1 !in t.docs
    ensures r.0.docs == t.docs[r.1 := doc]
    ensures r.0.order == t.order + [r.1]
  {
    var c := Collection(t.docs[t.next := doc], t.order + [t.next], t.next + 1);
    assert forall i :: 0 <= i < |t.order| ==> t.order[i] in t.docs;
    assert Valid(c);
    (c, t.next)
  }

  /** `doc.save()` or an update of an existing document: its content changes,
      its id and its place in the creation order do not. */
  function Replace<R>(t: Table<R>, id: Id, doc: R): (r: Table<R>)
    requires id in t.docs
    ensures r.docs == t.docs[id := doc]
    ensures r.order == t.order
  {
    Collection(t.docs[id := doc], t.order, t.next)
  }

  /** Writing back the stored document leaves the collection as it was. */
  lemma ReplaceSame<R>(t: Table<R>, id: Id)
    requires id in t.docs
    ensures Replace(t, id, t.docs[id]) == t
  {
    assert t.docs[id := t.docs[id]] == t.docs;
  }

  /** `s` without the occurrences of `x`, in the same order. */
  function Without(s: seq<Id>, x: Id): (r: seq<Id>)
    ensures forall k :: k in r <==> k in s && k != x
    ensures Increasing(s) ==> Increasing(r)
    ensures |r| <= |s|
  {
    if s == [] then []
    else
      var rest := Without(s[1..], x);
      if s[0] == x then rest
      else
        var r := [s[0]] + rest;
        assert Increasing(s) ==> Increasing(r) by {
          if Increasing(s) {
            assert Increasing(s[1..]);
            assert forall k :: k in s[1..] ==> s[0] < k;
            forall i, j | 0 <= i < j < |r| ensures r[i] < r[j] {
              assert r[j] == rest[j - 1] && rest[j - 1] in rest;
              if i > 0 { assert r[i] == rest[i - 1]; }
            }
          }
        }
        r
  }

  /** `findByIdAndDelete` of an existing document: exactly that document is
      removed. */
  function Delete<R>(t: Table<R>, id: Id): (r: Table<R>)
    requires id in t.docs
    ensures r.docs == map k | k in t.docs && k != id :: t.docs[k]
    ensures r.docs.Keys == t.docs.Keys - {id}
    ensures r.order == Without(t.order, id)
  {
    var c := Collection(map k | k in t.docs && k != id :: t.docs[k], Without(t.order, id), t.next);
    assert Valid(c);
    c
  }

  /** The ids occurring in `s`. */
  function Elems(s: seq<Id>): set<Id> {
    set k | k in s
  }

  /** An increasing sequence has as many distinct elements as it is long. */
  lemma {:induction false} IncreasingCardinality(s: seq<Id>)
    requires Increasing(s)
    ensures |Elems(s)| == |s|
  {
    if s == [] {
      assert Elems(s) == {};
    } else {
      IncreasingCardinality(s[1..]);
      var tail := Elems(s[1..]);
      assert s[0] !in tail;
      assert Elems(s) == tail + {s[0]};
    }
  }

  /** `countDocuments()`: the number of documents, which is also the length
      of the creation order. */
  function Count<R>(t: Table<R>): (n: nat)
    ensures n == |t.order|
  {
    IncreasingCardinality(t.order);
    assert Elems(t.order) == t.docs.Keys;
    |t.docs|
  }

  /** `find().sort({createdAt: -1})`: every document with its id, newest
      first. */
  function NewestFirst<R>(t: Table<R>): (r: seq<Entry<R>>)
    ensures |r| == |t.order|
    ensures forall i :: 0 <= i < |r| ==> r[i].id == t.order[|t.order| - 1 - i]
    ensures forall i :: 0 <= i < |r| ==> r[i].id in t.docs && r[i].doc == t.docs[r[i].id]
    ensures forall i, j :: 0 <= i < j < |r| ==> r[i].id > r[j].id
  {
    seq(|t.order|, i requires 0 <= i < |t.order| =>
      var id := t.order[|t.order| - 1 - i]; Entry(id, t.docs[id]))
  }

  /** `find()` without a sort: every document with its id, in creation order. */
  function OldestFirst<R>(t: Table<R>): (r: seq<Entry<R>>)
    ensures |r| == |t.order|
    ensures forall i :: 0 <= i < |r| ==> r[i].id == t.order[i]
    ensures forall i :: 0 <= i < |r| ==> r[i].id in t.docs && r[i].doc == t.docs[r[i].id]
    ensures forall i, j :: 0 <= i < j < |r| ==> r[i].id < r[j].id
  {
    seq(|t.order|, i requires 0 <= i < |t.order| => Entry(t.order[i], t.docs[t.order[i]]))
  }

  /** Both listings hold exactly the stored documents, each once. */
  lemma ListingsAreExact<R>(t: Table<R>)
    ensures forall e :: e in NewestFirst(t) <==> e.id in t.docs && e.doc == t.docs[e.id]
    ensures forall e :: e in OldestFirst(t) <==> e.id in t.docs && e.doc == t.docs[e.id]
  {
    var nf, of := NewestFirst(t), OldestFirst(t);
    forall e: Entry<R> | e.id in t.docs && e.doc == t.docs[e.id] ensures e in nf && e in of {
      var k :| 0 <= k < |t.order| && t.order[k] == e.id;
      assert nf[|t.order| - 1 - k] == e;
      assert of[k] == e;
    }
  }

  /** The entries of `es` whose document satisfies `keep`, in the same order. */
  function Where<R>(es: seq<Entry<R>>, keep: R -> bool): (r: seq<Entry<R>>)
    ensures forall i :: 0 <= i < |r| ==> r[i] in es && keep(r[i].doc)
    ensures forall i :: 0 <= i < |es| && keep(es[i].doc) ==> es[i] in r
    ensures |r| <= |es|
  {
    if es == [] then []
    else
      var rest := Where(es[1..], keep);
      if keep(es[0].doc) then [es[0]] + rest else rest
  }

  /** Filtering distributes over concatenation, so the kept entries keep
      their relative order. */
  lemma {:induction false} WhereConcat<R>(a: seq<Entry<R>>, b: seq<Entry<R>>, keep: R -> bool)
    ensures Where(a + b, keep) == Where(a, keep) + Where(b, keep)
  {
    if a == [] {
      assert a + b == b;
    } else {
      assert (a + b)[0] == a[0];
      assert (a + b)[1..] == a[1..] + b;
      WhereConcat(a[1..], b, keep);
    }
  }

  /** Ids strictly rise along the listing. */
  predicate Ascending<R>(es: seq<Entry<R>>) {
    forall i, j :: 0 <= i < j < |es| ==> es[i].id < es[j].id
  }

  /** Ids strictly fall along the listing. */
  predicate Descending<R>(es: seq<Entry<R>>) {
    forall i, j :: 0 <= i < j < |es| ==> es[i].id > es[j].id
  }

  /** Dropping the head keeps a listing ascending. */
  lemma AscendingTail<R>(es: seq<Entry<R>>)
    requires es != [] && Ascending(es)
    ensures Ascending(es[1..])
  {
    forall i, j | 0 <= i < j < |es[1..]| ensures es[1..][i].id < es[1..][j].id {
      assert es[1..][i] == es[i + 1] && es[1..][j] == es[j + 1];
    }
  }

  /** Dropping the head keeps a listing descending. */
  lemma DescendingTail<R>(es: seq<Entry<R>>)
    requires es != [] && Descending(es)
    ensures Descending(es[1..])
  {
    forall i, j | 0 <= i < j < |es[1..]| ensures es[1..][i].id > es[1..][j].id {
      assert es[1..][i] == es[i + 1] && es[1..][j] == es[j + 1];
    }
  }

  /** Putting an entry with a smaller id than every entry of an ascending
      listing in front keeps it ascending. */
  lemma AscendingCons<R>(x: Entry<R>, rest: seq<Entry<R>>)
    requires Ascending(rest)
    requires forall i :: 0 <= i < |rest| ==> x.id < rest[i].id
    ensures Ascending([x] + rest)
  {
    var r := [x] + rest;
    forall i, j | 0 <= i < j < |r| ensures r[i].id < r[j].id {
      assert r[j] == rest[j - 1];
      if i > 0 {
        assert r[i] == rest[i - 1];
      }
    }
  }

  /** Putting an entry with a larger id than every entry of a descending
      listing in front keeps it descending. */
  lemma DescendingCons<R>(x: Entry<R>, rest: seq<Entry<R>>)
    requires Descending(rest)
    requires forall i :: 0 <= i < |rest| ==> x.id > rest[i].id
    ensures Descending([x] + rest)
  {
    var r := [x] + rest;
    forall i, j | 0 <= i < j < |r| ensures r[i].id > r[j].id {
      assert r[j] == rest[j - 1];
      if i > 0 {
        assert r[i] == rest[i - 1];
      }
    }
  }

  /** Every entry kept from `es[1..]` is some later entry of `es`. */
  lemma WhereTail<R>(es: seq<Entry<R>>, keep: R -> bool, i: nat)
    requires es != [] && i < |Where(es[1..], keep)|
    ensures exists k :: 1 <= k < |es| && es[k] == Where(es[1..], keep)[i]
  {
    var x := Where(es[1..], keep)[i];
    assert x in es[1..];
    var k :| 0 <= k < |es[1..]| && es[1..][k] == x;
    assert es[k + 1] == x;
  }

  /** Filtering an ascending listing leaves it ascending. */
  lemma {:induction false} WhereAscending<R>(es: seq<Entry<R>>, keep: R -> bool)
    requires Ascending(es)
    ensures Ascending(Where(es, keep))
  {
    if es != [] {
      var rest := Where(es[1..], keep);
      AscendingTail(es);
      WhereAscending(es[1..], keep);
      if keep(es[0].doc) {
        forall i | 0 <= i < |rest| ensures es[0].id < rest[i].id {
          WhereTail(es, keep, i);
        }
        AscendingCons(es[0], rest);
      }
    }
  }

  /** Filtering a descending listing leaves it descending. */
  lemma {:induction false} WhereDescending<R>(es: seq<Entry<R>>, keep: R -> bool)
    requires Descending(es)
    ensures Descending(Where(es, keep))
  {
    if es != [] {
      var rest := Where(es[1..], keep);
      DescendingTail(es);
      WhereDescending(es[1..], keep);
      if keep(es[0].doc) {
        forall i | 0 <= i < |rest| ensures es[0].id > rest[i].id {
          WhereTail(es, keep, i);
        }
        DescendingCons(es[0], rest);
      }
    }
  }
}

=== FILE: text.dfy ===
/** String operations the controllers and schemas rely on: JavaScript's
    `String.prototype.trim`, the blank test `!s?.trim()`, and the decimal
    text that stands for a document id when it is compared with a string. */
module Text {
  import opened Common

  /** The WhiteSpace and LineTerminator code points of ECMAScript, which is
      exactly what `trim` strips from both ends of a string. */
  predicate IsSpace(c: char) {
    || c == '\t' || c == '\n' || c == '\U{000B}' || c == '\U{000C}' || c == '\r'
    || c == ' ' || c == '\U{00A0}' || c == '\U{1680}'
    || ('\U{2000}' <= c <= '\U{200A}')
    || c == '\U{2028}' || c == '\U{2029}' || c == '\U{202F}' || c == '\U{205F}'
    || c == '\U{3000}' || c == '\U{FEFF}'
  }

  /** A string with no white space at either end. */
  predicate Trimmed(s: string) {
    s == [] || (!IsSpace(s[0]) && !IsSpace(s[|s| - 1]))
  }

  /** Every character of `s` is white space (vacuously so for ""). */
  predicate AllSpace(s: string) {
    forall i :: 0 <= i < |s| ==> IsSpace(s[i])
  }

  /** The number of white-space characters at the start of `s`. */
  function LeadingSpaces(s: string): (n: nat)
    ensures n <= |s|
    ensures AllSpace(s[..n])
    ensures n == |s| || !IsSpace(s[n])
  {
    if |s| > 0 && IsSpace(s[0]) then 1 + LeadingSpaces(s[1..]) else 0
  }

  /** `s` without its trailing white space. */
  function TrimEnd(s: string): (r: string)
    ensures |r| <= |s| && r == s[..|r|]
    ensures AllSpace(s[|r|..])
    ensures r == [] || !IsSpace(r[|r| - 1])
  {
    if |s| > 0 && IsSpace(s[|s| - 1]) then
      var r := TrimEnd(s[..|s| - 1]);
      assert s[|r|..] == s[..|s| - 1][|r|..] + [s[|s| - 1]];
      r
    else
      s
  }

  /** `String.prototype.trim`: the result is the part of `s` that remains
      once the white space at both ends is cut off. */
  function Trim(s: string): (r: string)
    ensures Trimmed(r)
    ensures LeadingSpaces(s) + |r| <= |s|
    ensures r == s[LeadingSpaces(s)..LeadingSpaces(s) + |r|]
    ensures AllSpace(s[..LeadingSpaces(s)])
    ensures AllSpace(s[LeadingSpaces(s) + |r|..])
  {
    var n := LeadingSpaces(s);
    var r := TrimEnd(s[n..]);
    assert r == [] ==> Trimmed(r);
    assert r != [] ==> r[0] == s[n];
    r
  }

  /** A trimmed string is its own trim. */
  lemma TrimOfTrimmed(s: string)
    requires Trimmed(s)
    ensures Trim(s) == s
  {
    if s != [] {
      assert LeadingSpaces(s) == 0;
      assert TrimEnd(s) == s;
    }
  }

  /** Trimming twice is trimming once. */
  lemma TrimIdempotent(s: string)
    ensures Trim(Trim(s)) == Trim(s)
  {
    TrimOfTrimmed(Trim(s));
  }

  /** White space followed by white space is white space. */
  lemma AllSpaceConcat(a: string, b: string)
    requires AllSpace(a) && AllSpace(b)
    ensures AllSpace(a + b)
  {
    forall i | 0 <= i < |a + b| ensures IsSpace((a + b)[i]) {
      if i < |a| { assert (a + b)[i] == a[i]; } else { assert (a + b)[i] == b[i - |a|]; }
    }
  }

  /** `s.trim()` is empty exactly when `s` is all white space. */
  lemma TrimEmptyIffAllSpace(s: string)
    ensures Trim(s) == [] <==> AllSpace(s)
  {
    var n := LeadingSpaces(s);
    if Trim(s) == [] {
      AllSpaceConcat(s[..n], s[n..]);
      assert s[..n] + s[n..] == s;
    } else {
      assert Trim(s)[0] == s[n];
    }
  }

  /** JavaScript's `!s?.trim()` on an optional string: true when the value is
      absent, empty, or only white space. */
  predicate Blank(s: Option<string>) {
    s.None? || Trim(s.value) == []
  }

  /** JavaScript's `!s` on an optional string: absent or "". */
  predicate Falsy(s: Option<string>) {
    s.None? || s.value == []
  }

  /** The character of a decimal digit. */
  function Digit(d: nat): (c: char)
    requires d < 10
    ensures '0' <= c <= '9'
  {
    (48 + d) as char
  }

  /** The decimal text of `n`, without leading zeros: the string a document
      id is compared with when a query matches it against a string field. */
  function DecimalText(n: nat): (r: string)
    ensures 1 <= |r|
    ensures forall i :: 0 <= i < |r| ==> '0' <= r[i] <= '9'
    ensures r[|r| - 1] == Digit(n % 10)
    ensures n < 10 <==> |r| == 1
    ensures r[0] == '0' <==> n == 0
  {
    if n < 10 then [Digit(n)] else DecimalText(n / 10) + [Digit(n % 10)]
  }

  /** A number's text as JavaScript's `String(n)` writes an integer: its
      decimal text, after a minus sign when it is negative. */
  function NumberText(n: int): (r: string)
    ensures 1 <= |r|
    ensures r[0] == '-' <==> n < 0
    ensures n >= 0 ==> r == DecimalText(n)
    ensures n < 0 ==> r[1..] == DecimalText(-n)
  {
    if n < 0 then "-" + DecimalText(-n) else DecimalText(n)
  }

  /** Distinct numbers have distinct decimal texts, so a string field can
      name at most one document id. */
  lemma {:induction false} DecimalTextInjective(a: nat, b: nat)
    requires DecimalText(a) == DecimalText(b)
    ensures a == b
  {
    var s := DecimalText(a);
    assert Digit(a % 10) == Digit(b % 10);
    if 10 <= a {
      assert DecimalText(a / 10) == s[..|s| - 1] == DecimalText(b / 10);
      DecimalTextInjective(a / 10, b / 10);
    }
  }

  /** The contrapositive form used when a query compares a string field with
      one id while another id is meant. */
  lemma DecimalTextDistinct(a: nat, b: nat)
    ensures a != b ==> DecimalText(a) != DecimalText(b)
  {
    if DecimalText(a) == DecimalText(b) {
      DecimalTextInjective(a, b);
    }
  }
}
